=== FILE: README.md ===
# Eleusis: a verified model of the card game's core

This project models the core of a terminal implementation of Eleusis Express.
In that game a secret rule decides which cards may be played onto a MAIN LINE.
Players take turns offering a card, or claim `NO PLAY` when they believe no card
in hand passes. Rejected cards go to a SIDE LINE and are replaced from the deck.
The first player to get rid of their hand correctly wins the round, and every
player scores the starting hand size minus the cards they still hold.

The model is a set of pure functions over immutable datatypes, in eleven modules
that follow the program's files:

- `Cards`, `Text` (cardobjects.py): suits and their colours, cards with a closed
  `Rank` datatype, the low-Ace number `valAsNum`, the Ace-favourable comparison
  operators, and `format`/`parse`. Parsing uses a model of Python's
  `str.split()` and `str.lower()`.
- `Hands`, `Decks` (cardobjects.py): hand scans (`hasCard`, `removeCard`,
  `removeAPassingCard`), the pass rate `odds` as an exact fraction, deck
  folding, and dealing from the end of the deck with automatic refill.
- `Lines`, `Rules`, `Players` (eleusisobjects.py): the line as a list of plays
  with its main and full views, the rule engine as a tree of base rules,
  `merge` (AND) and `overlay` (OR) nodes evaluated against an explicit context,
  and the round-robin over player names.
- `Catalogue` (rules.py): the nine shipped secret rules, each proved equal to an
  independent reading of its description.
- `Turns`, `Game` (eleusis.py): one turn of `playTurn` as a transition on
  (hand, line, deck), the input loop, `playerWins` scoring, and the setup of
  `initializeRound`.

A rule callback returns a three-valued `Verdict`: `Pass`, `Fail`, or `Raise`
when the Python callback would throw (for instance `m[-1]` on an empty main
line). A composite rule evaluates its operands in the same order as Python's
`and`/`or`, so the model says which errors escape.

The main results:
- `parse(format(c)) == c` for every card.
- Each catalogue rule agrees with its informal description. Two examples:
  turn-the-corner means "1 to 3 places ahead, mod 13", and `threeInARow` keeps
  the main line in blocks of three colours.
- Each branch of a turn does what the game promises.
- A player wins exactly when holding one card and disposing of it correctly.
- Only passing cards reach the main line.
- A turn that does not end the round loses no card and invents none. A winning
  turn takes exactly one card out of the game: the winner's last card, since
  `playerWins` empties the hand without putting the card on the line.
- Setup deals exactly `DeckCount` standard sets across the hands, the seed
  card and the deck.

## Model

| member | source | states |
|---|---|---|
| Text.Split | cardobjects.py:92 | every token `str.split()` returns is non-empty and free of whitespace |
| Text.SplitUnwords | cardobjects.py:92 | splitting words joined by single spaces gives back exactly those words |
| Text.SplitSkipsSpaces | cardobjects.py:92 | leading whitespace does not change the tokens |
| Text.SplitWord | cardobjects.py:92 | a word followed by whitespace or by nothing is the first token |
| Text.LowerChar | cardobjects.py:90-93 | an ASCII capital becomes its own lower-case letter, 32 code points on; every other character is kept |
| Text.Lower | cardobjects.py:90-93 | lower-casing keeps the length and maps each character on its own |
| Text.LowerIdempotent | cardobjects.py:93-94 | lower-casing twice is lower-casing once, so the lowered lookup keys are stable |
| Text.SplitLower | cardobjects.py:90-93 | lower-casing and splitting commute: the tokens of the lowered text are the lowered tokens |
| Cards.SuitColor | cardobjects.py:23-26 | a suit is red exactly when it is Hearts or Diamonds, and black exactly when it is Clubs or Spades |
| Cards.Equal | cardobjects.py:98-100 | two cards are `==` exactly when they are the same card (rank and suit) |
| Cards.NotEqual | cardobjects.py:102-103 | `!=` holds exactly when rank or suit differ, the negation of `==` |
| Cards.ValAsNum | cardobjects.py:105-111 | the number lies in 1..13 and is 1 exactly for an Ace |
| Cards.NumberDeterminesRank | cardobjects.py:110-111 | two cards have the same number exactly when they have the same rank |
| Cards.Lt | cardobjects.py:113-118 | without Aces, `<` compares the numbers and ignores suits; two Aces are never `<`; with exactly one Ace, `<` holds |
| Cards.Gt | cardobjects.py:120-125 | without Aces, `>` compares the numbers and ignores suits; two Aces are never `>`; with exactly one Ace, `>` holds |
| Cards.Ge | cardobjects.py:127-132 | without Aces, `>=` compares the numbers and ignores suits; two Aces are always `>=`; with exactly one Ace, `>=` holds |
| Cards.Le | cardobjects.py:134-139 | without Aces, `<=` compares the numbers and ignores suits; two Aces are always `<=`; with exactly one Ace, `<=` holds |
| Cards.CompareAces | cardobjects.py:113-139 | two Aces are neither `<` nor `>`, are both `<=` and `>=`, and are `==` only with equal suits |
| Cards.ComparisonsConverse | cardobjects.py:113-139 | `a > b` is `b < a` and `a >= b` is `b <= a` |
| Cards.RankKey | cardobjects.py:90 | the rank lookup keys are the lower-cased rank names |
| Cards.SuitKey | cardobjects.py:91 | the suit lookup keys are the lower-cased suit names |
| Cards.RankOfKey | cardobjects.py:90-94 | the rank table returns rank `k` exactly for the key of `k`, and nothing for any other word |
| Cards.SuitOfKey | cardobjects.py:91-94 | the suit table returns suit `u` exactly for the key of `u`, and nothing for any other word |
| Cards.Parse | cardobjects.py:86-95 | `parse` gives a card exactly when there are three tokens, the first lowers to that card's rank key and the third to its suit key; otherwise it gives nothing |
| Cards.Format | cardobjects.py:78-80 | the text form is the rank name, `of` and the suit name, which `split` reads back as exactly those three tokens |
| Cards.ParseFormat | cardobjects.py:78-95 | parsing the text form of any card gives that card back |
| Cards.NamesAreWords | cardobjects.py:30-58 | every rank name and suit name is one whitespace-free token |
| Cards.ParseIgnoresCase | cardobjects.py:90-94 | lower-casing the input never changes the parse |
| Cards.ParseIgnoresMiddle | cardobjects.py:93-94 | two inputs with the same first and third tokens parse alike, whatever the middle token |
| Lines.MainLine | eleusisobjects.py:57-58 | the main view has one card per play, the main card of that play, in play order |
| Lines.AddToMain | eleusisobjects.py:51-52 | the earlier plays are kept; the card ends both the main view and the full view |
| Lines.AddToSide | eleusisobjects.py:54-55 | fails exactly on an empty line; otherwise the main view is unchanged and the card ends the full view |
| Lines.AddAllToSide | eleusis.py:136-137 | adding cards one by one puts them, in order, on the side list of the last play and at the end of the full view |
| Lines.FullLineAppend | eleusisobjects.py:60-61 | the full view of two lines one after the other is the two full views concatenated |
| Lines.FullLine | eleusisobjects.py:60-61 | the full view holds one card per play plus all side cards |
| Lines.MainEmbedsInFull | eleusisobjects.py:57-61 | each play's main card appears in the full view at increasing offsets, so the main view is a subsequence of the full view |
| Lines.LineExample | tests.py:109-120 | two main cards and then two side cards give main view `[a, b]` and full view `[a, b, c, d]` |
| Rules.Test | eleusisobjects.py:89-90 | a base rule's test is its callback on the card, the main view, the full view and the hand |
| Rules.TestReadsViews | eleusisobjects.py:89-90 | a rule's verdict depends only on the card, the two views of the line and the hand |
| Rules.Eval | eleusisobjects.py:92-96 | a merged rule passes exactly when both operands pass, an overlaid one fails exactly when both fail, and an error escapes from the left operand, or from the right one when Python's `and` / `or` would reach it |
| Rules.Merge | eleusisobjects.py:92-93 | the name is `(a and b)`; a card passes exactly when it passes both rules; a failure of `a` is a failure; an error escapes from `a`, or from `b` when `a` passed |
| Rules.Overlay | eleusisobjects.py:95-96 | the name is `(a or b)`; absent errors a card passes exactly when it passes either rule; a pass of `a` is a pass; an error escapes from `a`, or from `b` when `a` failed |
| Rules.ComposeWithoutErrors | eleusisobjects.py:92-96 | when neither rule raises, `merge` and `overlay` are the boolean AND and OR of the two verdicts |
| Hands.HasCard | cardobjects.py:150-153 | `hasCard(c)` holds exactly when `c` is in the hand |
| Hands.RemoveFirst | cardobjects.py:187-195 | the scan reports no match exactly when no card qualifies; otherwise it takes out the first qualifying card and keeps the others in order |
| Hands.RemoveCard | cardobjects.py:187-195 | no match exactly when `c` is not held; otherwise it removes the first copy of `c` and keeps the other cards in order |
| Hands.RemoveAPassingCard | cardobjects.py:170-178 | the first card whose test does not fail decides: a passing card is removed, keeping the others in order; a raising one makes the exception escape; no match exactly when every card fails |
| Hands.PassCount | cardobjects.py:180-184 | the count is at most the number of cards, is 0 exactly when no card passes, and is full exactly when all pass |
| Hands.Odds | cardobjects.py:180-185 | raises exactly when the rule raises on some card or there are no cards (division by zero); otherwise passes out of the card count, 0 exactly when none passes and 1 exactly when all pass |
| Hands.RaiseEscapes | cardobjects.py:170-185 | a rule that raises on the first card makes both `odds` and `removeAPassingCard` raise |
| Hands.RemovePassingDropsCount | cardobjects.py:170-185 | removing a passing card lowers the pass count by exactly one |
| Hands.OddsExample | tests.py:149-170 | "above the last main card" merged with "at least every card in hand" passes for exactly half of the hand 3 of Spades, 7 of Clubs |
| Hands.AtLeastHandReads | tests.py:162 | the hand rule of the tests passes exactly when the card is `>=` every card in hand |
| Decks.RankIndex | cardobjects.py:203 | a rank's place in the `values` list is its number minus one |
| Decks.StandardSet | cardobjects.py:209-214 | one fold appends 52 cards |
| Decks.StandardSetComplete | cardobjects.py:209-213 | one fold appends every suit-rank pair, each exactly once |
| Decks.StandardSetCount | cardobjects.py:209-213 | each card occurs exactly once in a fold |
| Decks.FoldInDeck | cardobjects.py:209-214 | folding in keeps the old cards and adds one standard set, whatever order the shuffle chooses |
| Decks.NewDeck | cardobjects.py:216-220 | `Deck(n)` holds exactly `n` standard sets, 52·n cards |
| Decks.NewDeckCounts | cardobjects.py:216-220 | a fresh deck of `n` sets holds each card exactly `n` times |
| Decks.Deal | cardobjects.py:222-230 | a deal refills exactly when the deck is empty, and then leaves 51 cards; otherwise it shrinks the deck by one |
| Decks.DealPops | cardobjects.py:222-230 | the card dealt is the last card of the deck, or of the refill when the deck was empty |
| Decks.DealConserves | cardobjects.py:222-230 | the card dealt plus the rest are the deck, plus one standard set when it refilled |
| Decks.DealMany | eleusis.py:139-140 | `k` deals give `k` cards and at most `k` refills |
| Decks.DealManyOneRefill | cardobjects.py:222-230 | `k` deals from a deck of fewer than `k` cards fold in exactly one set when the shortfall is at most 52, and leave the rest of that set; 53 deals from a full deck refill once |
| Decks.DealManyCounts | eleusis.py:139-140 | over `k` deals, each card's copies are kept, and each refill adds one more |
| Decks.DealManyConserves | eleusis.py:139-140 | dealing `k` cards loses no card and invents none; it only adds whole standard sets |
| Decks.DealManyFromStock | eleusis.py:139-140 | with at least `k` cards in the deck, `k` deals take the top `k` cards, top first, and fold in nothing |
| Catalogue.RuleOf | rules.py:36-78 | each catalogue entry is a base rule with its title, whose test in any context is the entry's callback on the main view alone, never the full view or the hand |
| Catalogue.Judge | rules.py:19-76 | a callback raises exactly when the main line is empty and the entry is not `threeInARow`: every lambda reads `m[-1]`, while `threeInARow` catches the IndexError and rejects |
| Catalogue.LooksAtTail | rules.py:19-76 | every rule but `threeInARow` reads only the last main card, and `threeInARow` only the last three |
| Catalogue.AlternateColorKeepsAlternation | rules.py:39-42 | on a colour-alternating line the rule accepts exactly the cards that keep it alternating |
| Catalogue.SuitCycleIsFourCycle | rules.py:45 | the successor map on suits returns to the start after four steps and not before |
| Catalogue.StepsTo | rules.py:45 | every suit is reached from every suit within four steps of the cycle |
| Catalogue.SuitCycleAccepts | rules.py:43-46 | the rule accepts exactly the successor of the last suit, never the same suit |
| Catalogue.AlternateParityAccepts | rules.py:51-54 | the rule accepts exactly when the two numbers add up to an odd number, so never the same rank |
| Catalogue.LowHighAccepts | rules.py:55-58 | the rule accepts exactly the cards on the other side of 7/8 from the last card |
| Catalogue.TurnCornerAccepts | rules.py:59-62 | the rule accepts exactly the numbers 1, 2 or 3 places ahead of the last, counting on past King to Ace |
| Catalogue.OddRedAccepts | rules.py:65-68 | a card passes exactly when it is red if the last number is odd, and black if it is even |
| Catalogue.SuitOrNumberAccepts | rules.py:69-72 | the rule accepts exactly a card matching the last one in suit or in rank, so always a copy of it |
| Catalogue.BlackLowRedHighAccepts | rules.py:73-76 | the rule rejects exactly a card above a black last card or below a red one; the same rank always passes |
| Catalogue.Streak | rules.py:19-31 | the streak is the longest run of the last card's colour at the end of the main line |
| Catalogue.RunFromCountsStreak | rules.py:19-30 | the loop of `threeInARow` counts the streak, capped at three, and keeps the colour of the last card |
| Catalogue.ColorTriplesAcceptsIff | rules.py:19-31 | `threeInARow` rejects every card on an empty main line; otherwise it asks for a change of colour after three of a colour, and for the same colour after fewer |
| Catalogue.TriplesStreak | rules.py:19-31 | on a line in blocks of three, the streak is the position within the current block |
| Catalogue.ColorTriplesKeepsTriples | rules.py:47-50 | on a line in blocks of three, `threeInARow` accepts exactly the cards that continue the pattern |
| Catalogue.TriplesNoFourInARow | rules.py:47-50 | a line in blocks of three never holds four cards of one colour in a row |
| Catalogue.SeedIsPattern | eleusis.py:37 | a seed card alone is in triples and alternates |
| Catalogue.Accepted | rules.py:39-76 | after any non-empty main line, every catalogue rule accepts some card (on the empty line the eight lambdas raise on every card) |
| Catalogue.AcceptsAllCards | rules.py:73-76 | after a black King or a red Ace, black-low/red-high accepts every card |
| Catalogue.Rejected | rules.py:39-76 | after any non-empty main line, every catalogue rule rejects some card, except black-low/red-high after a black King or red Ace |
| Players.NewPlayer | eleusisobjects.py:10-14 | a new player has the given name, an empty hand and score 0 |
| Players.Table | eleusisobjects.py:18-21 | the table has a record for exactly the names given, each a new player of that name |
| Players.NewRoster | eleusisobjects.py:17-22 | every name has its own new record, the order is the joining order, and no one has been called yet |
| Players.NextPlayer | eleusisobjects.py:24-25 | with no names there is no next player; otherwise the next player is one of the named players, and the roster stays well formed |
| Players.RoundRobin | eleusisobjects.py:22-25 | the `j`-th of `k` calls names `names[(calls + j) mod n]` |
| Players.NewRosterRoundRobin | eleusisobjects.py:17-25 | on a new roster the `j`-th call names `names[j mod n]` |
| Players.EveryoneInEachLap | eleusisobjects.py:22-25 | any `n` consecutive calls name every player |
| Turns.Classify | eleusis.py:128-130 | the claim string is `NO PLAY` exactly; anything else is a card when it parses, and unrecognised otherwise |
| Turns.NoPlayIsNoCard | eleusis.py:129-130 | `NO PLAY` does not parse as a card, so testing for it before or after parsing comes to the same |
| Turns.Replace | eleusis.py:144-146 | the kept cards stay in order and one dealt card is added at the end |
| Turns.ReplaceConserves | eleusis.py:157-159 | moving a card from hand to line and dealing a replacement keeps every card |
| Turns.ClearHand | eleusis.py:135-140 | after a correct claim the main view is unchanged, the whole hand ends the full view in order, and the new hand has one card fewer |
| Turns.ClearHandFromStock | eleusis.py:135-140 | with enough stock the new hand is the top `n - 1` cards of the deck and nothing is folded in |
| Turns.ClearHandConserves | eleusis.py:135-140 | clearing the hand keeps every card, plus the sets folded in |
| Turns.OnlyPlayedChanges | eleusis.py:127-166 | only a played turn changes anything; the player is asked again exactly for unparseable text and for a card not held |
| Turns.ClaimStatus | eleusis.py:130-149 | a `NO PLAY` claim never asks again and changes nothing unless the turn is played |
| Turns.OfferStatus | eleusis.py:150-166 | an offered card is refused as not held exactly when it is not in hand; otherwise nothing changes unless the turn is played |
| Turns.PlayTextUnrecognised | eleusis.py:164-166 | text is asked for again as unrecognised exactly when it is not `NO PLAY` and does not parse |
| Turns.WinCondition | eleusis.py:130-153 | a player wins exactly when holding one card and claiming no play while it fails, or offering it while it passes |
| Turns.ClaimWins | eleusis.py:131-134 | a `NO PLAY` claim wins exactly when the one card in hand fails |
| Turns.OfferWins | eleusis.py:150-153 | an offer wins exactly when it is the one card in hand and it passes |
| Turns.CorrectNoPlay | eleusis.py:131-142 | a correct claim with two or more cards moves the whole hand to the side line and deals one card fewer |
| Turns.IncorrectNoPlay | eleusis.py:143-149 | a wrong claim moves the first passing card in hand order to the main line and replaces it, so the hand keeps its size |
| Turns.PlayPassing | eleusis.py:150-156 | a held passing card with more cards in hand goes to the main line; the hand shrinks by one and the deck is untouched |
| Turns.PlayFailing | eleusis.py:157-161 | a held failing card goes to the side line and is replaced; the main line and the hand size stay |
| Turns.HandStaysNonEmpty | eleusis.py:130-161 | every turn leaves the player's hand non-empty in the state it reports; a win reports the state from before the turn, with one card in hand, and `playerWins` (eleusis.py:102) then empties the hand |
| Turns.MainGrowsByPassing | eleusis.py:130-161 | the main line either stays or grows by one card that passed the rule |
| Turns.NoCrash | eleusis.py:127-166 | with cards in hand, a non-empty line and a rule that never raises, no turn crashes |
| Turns.TurnConserves | eleusis.py:127-166 | hand, full line and deck together gain exactly the sets folded in; a win leaves all three as they were, and the winner's card is dropped only by `playerWins` |
| Game.DeckCount | eleusis.py:30 | at least one standard set is folded in |
| Game.DeckSuffices | eleusis.py:30-37 | the starting deck covers every hand and the seed card |
| Game.DealHands | eleusis.py:33-36 | dealing keeps the table's names |
| Game.DealHandsShape | eleusis.py:33-36 | dealing replaces only the hands: every player named gets `handSize` cards, and names and scores stay |
| Game.DealHandsConserves | eleusis.py:33-36 | the hands plus the rest of the deck are the deck, plus the sets folded in |
| Game.DealHandsFromStock | eleusis.py:33-36 | with enough cards nothing is folded in, and `handSize` cards per player leave the deck |
| Game.Seed | eleusis.py:37 | the seeded line has one play; the roster gets its new hands and the round is on with no winner |
| Game.Setup | eleusis.py:26-37 | setup keeps the players, their order and the call count, starts the round with no winner, and seeds the line with one play |
| Game.SetupHands | eleusis.py:33-36 | after setup every player holds `handSize` cards and keeps their score |
| Game.SetupDeck | eleusis.py:30-37 | after setup the deck holds the `DeckCount` sets minus the hands and the seed card |
| Game.SeedConserves | eleusis.py:37 | the seed card moves from the deck to the line |
| Game.SetupConserves | eleusis.py:30-37 | after setup the hands, line and deck together hold exactly `DeckCount` standard sets |
| Game.PlayerWins | eleusis.py:100-107 | the round ends with this winner; the line, deck and players stay |
| Game.WinnerScoring | eleusis.py:100-107 | the winner's hand is emptied and they gain exactly the hand size; everyone else gains the hand size minus their cards and keeps them |
| Game.InputLoop | eleusis.py:127-166 | the turn ends at the first text that does not ask again; all texts before it ask again |
| Game.PlayTurn | eleusis.py:110-166 | a turn keeps the roster well formed and calls `nextPlayer` exactly once |
| Game.TurnTaken | eleusis.py:127-166 | a turn that went on was the next player's first decisive text, resolved against their hand, the line and the deck; a win ends the round with the line unchanged, and any other result is written back |
| Game.LineNeverShrinks | eleusis.py:37 | a turn never shortens the line, so after setup `addToSide` always finds a play |
| Game.CatalogueNeverCrashes | eleusis.py:127-166 | under any catalogue rule, with cards in hand and a seeded line, no turn crashes |
| Game.PlayTurnConserves | eleusis.py:127-166 | a turn that does not end the round keeps every card of the round, plus the sets folded in |
| Game.WinningTurnDropsCard | eleusis.py:100-107 | a turn that ends the round was won with one card in hand and folds nothing in; every card of the round but that one stays |
| Game.TurnWon | eleusis.py:130-153 | a turn that ends an active round is a win with the player's one card, scored by `playerWins` |
| Game.PlayerWinsDropsHand | eleusis.py:100-102 | `playerWins` takes exactly the winner's cards out of the round |
| Game.TriplesSurviveTurn | rules.py:47-50 | under `threeInARow`, a main line in blocks of three colours still is after any turn |

## Left out

- Terminal I/O is not modelled: `clearScreen`, `print`, `input`, `sleep`, `Line.printLine`, `shortFormat`, `fancyFormat`, and the messages of each branch. The texts a player types are a sequence of strings given to `PlayTurn`.
- Game.start is not modelled. Its name collection rejects repeated names (eleusis.py:77-80), so the lemmas that count cards across players require `DistinctNames`.
- The play-again loop and the recursive new rounds of `initializeRound` (eleusis.py:38-58) are not modelled. One turn at a time is modelled by `PlayTurn`.
- The random choice of the round's rule is not modelled; the rule is a parameter of `Setup`.
- Randomness in `Deck.shuffle` is modelled as an arbitrary permutation (`Shuffle`), a function that keeps every card. Uniformity is not modelled. One function stands for every shuffle of a setup.
- A refill during play takes its order from a `refill` parameter, which must be a permutation of one standard set.
- Every refill within one turn, and within one `DealMany`, reuses that same `refill` order, while Python reshuffles at each `foldInDeck` (cardobjects.py:209-230). The contracts hold for any valid order, so they do not depend on this; only the order of the cards after a second refill in one turn is not modelled.
- `STARTING_HAND_SIZE` (12 unless the `starting_hand_size` option is given, eleusis.py:19) is the parameter `handSize` of the round; every result holds for any hand size.
- Setup deals with the standard order as its refill argument. That argument is never used, because the starting deck always covers the hands and the seed card (`DeckSuffices`, `DealHandsFromStock`).
- The float result of `odds` is a `Ratio` of passes to cards. Its exceptions, the division by zero on no cards and a callback that raises on some card, are `None`. `Turns.ClaimNoPlay` asks `AnyRaises` and the hand size directly, which is the same test.
- `Card.odds` (cardobjects.py:70-76) is the same loop as `Hand.odds`, so `Hands.Odds` stands for both.
- The class-level `Rule.line` and `Rule.hand` are replaced by an explicit `Context` passed to `Test`. A turn evaluates the rule in the context of its start. This is exact: the Python hand object is popped only after the last rule evaluation of the turn.
- Python iterator plumbing becomes plain sequences: `Hand.__iter__`/`__next__`, `Players.__iter__`/`__next__`, `mapPlayers`, `getPlayers`, `__len__`, `numberOfCards` and `getCards`.
- `Hand.addCard` becomes appending to a sequence.
- The shared mutable default `hand=Hand()` of `Player.__init__` is not modelled. Setup gives every player a new hand before any play.
- The commented-out `Rule.odds` is not modelled.
- Rank values are a closed datatype. The unit test's `Card('3', …)`, whose rank is a string, is not a card of this model.
- Catalogue.Title: the rule titles are short paraphrases of the long descriptions in rules.py. Names matter only for `merge`/`overlay`, which are modelled for arbitrary titles.
- Text.Lower: only ASCII letters are lowered. Python's `str.lower()` also maps a few non-ASCII characters to ASCII, such as the Kelvin sign U+212A to `k`, so such spellings of a card name parse in Python but not in the model.
- An exception escaping a turn is the status `Crashed`, with the state as it was before the turn. This matches when a callback raises, when `odds` divides by zero, and when clearing a hand meets an empty line. It does not match when an offered failing card meets an empty line: Python has already popped the card from the hand when `addToSide` raises. The program ends at any uncaught exception, so that state is never observed.
- Game.DealHands walks the list of names, while Python walks the table of records. With repeated names the model would deal twice to the same record; the program never builds such a roster.
- Game.DealHands: its own contract states only that the names of the table stay. The hand sizes and scores are stated by `DealHandsShape`, and the cards by `DealHandsConserves`.
- Decks.StandardSet: its own contract states only the length. The contents, every card exactly once, are stated by `StandardSetComplete` and `StandardSetCount`; keeping that quantifier out of the set's contract keeps it out of every proof that mentions the set.
- Rules.Test: its own contract states the base case only. The composite cases are stated on `Eval`, and at the level of `Test` by `Merge` and `Overlay`.
- Game.HandsBag counts only the names that have a record; every well-formed roster has one for each name.
- Game.Setup: its ensures give the roster, the flags, the rule and the line length. The hands are stated by `SetupHands`, the deck size by `SetupDeck`, and the card count by `SetupConserves`.
- Game.PlayTurn: its ensures state only the roster's shape and the call count. What the turn did is stated by `TurnTaken`, `PlayTurnConserves`, `LineNeverShrinks` and `TriplesSurviveTurn`.
- Turns.NoCrash: states a sufficient condition for no crash, not every cause of a crash. The causes are listed with `Status`.
- Turns.ClaimNoPlay, Turns.OfferCard, Turns.Resolve and Turns.PlayText carry no ensures of their own. Their behaviour is stated by the branch lemmas listed above.

=== FILE: cards.dfy ===
/** Suits, colours, cards, the low-Ace number, the Ace-favourable
    comparisons, and the "<Rank> of <Suit>" text form (cardobjects.py). */
module Cards {
  import opened Wrappers
  import opened Text

  datatype Color = Red | Black

  datatype Suit = Club | Heart | Spade | Diamond

  /** The enum values CLUB = 1, HEART = 2, SPADE = 3, DIAMOND = 4. */
  function SuitValue(s: Suit): int {
    match s
    case Club => 1
    case Heart => 2
    case Spade => 3
    case Diamond => 4
  }

  /** `Suit.color`: even enum values are red. */
  function SuitColor(s: Suit): (c: Color)
    ensures c == Red <==> s == Heart || s == Diamond
    ensures c == Black <==> s == Club || s == Spade
  {
    if SuitValue(s) % 2 == 0 then Red else Black
  }

  /** The thirteen ranks; the Python code keys them 'A', 2..10, 'J', 'Q', 'K'. */
  datatype Rank = Ace | Two | Three | Four | Five | Six | Seven | Eight | Nine | Ten
                | Jack | Queen | King

  datatype Card = Card(rank: Rank, suit: Suit)

  function ColorOf(c: Card): Color {
    SuitColor(c.suit)
  }

  /** `Card.__eq__`: rank and suit both match, which is exactly value equality. */
  function Equal(a: Card, b: Card): (r: bool)
    ensures r <==> a == b
  {
    a.rank == b.rank && a.suit == b.suit
  }

  /** `Card.__ne__`. */
  function NotEqual(a: Card, b: Card): (r: bool)
    ensures r <==> a.rank != b.rank || a.suit != b.suit
  {
    !Equal(a, b)
  }

  /** The integer a numeral rank carries in the Python code. */
  function Numeral(r: Rank): int {
    match r
    case Two => 2
    case Three => 3
    case Four => 4
    case Five => 5
    case Six => 6
    case Seven => 7
    case Eight => 8
    case Nine => 9
    case Ten => 10
    case _ => 0
  }

  /** `__mapToValue` with the table {'J':11, 'Q':12, 'K':13} and the Ace as
      1 (`aceHigh` false) or 14 (`aceHigh` true); numerals map to themselves. */
  function MapToValue(c: Card, aceHigh: bool): int {
    match c.rank
    case Ace => if aceHigh then 14 else 1
    case Jack => 11
    case Queen => 12
    case King => 13
    case _ => Numeral(c.rank)
  }

  /** `valAsNum`: the low-Ace number. */
  function ValAsNum(c: Card): (n: int)
    ensures 1 <= n <= 13
    ensures n == 1 <==> c.rank == Ace
  {
    MapToValue(c, false)
  }

  /** Distinct ranks have distinct numbers. */
  lemma NumberDeterminesRank(a: Card, b: Card)
    ensures ValAsNum(a) == ValAsNum(b) <==> a.rank == b.rank
  {
  }

  predicate BothAces(a: Card, b: Card) {
    a.rank == Ace && b.rank == Ace
  }

  /** `__lt__`: the left Ace counts 1 and the right Ace 14, so two Aces are not
      below each other and a lone Ace wins either way round. */
  predicate Lt(a: Card, b: Card): (r: bool)
    ensures a.rank != Ace && b.rank != Ace ==> (r <==> ValAsNum(a) < ValAsNum(b))
    ensures a.rank == Ace && b.rank == Ace ==> !r
    ensures (a.rank == Ace) != (b.rank == Ace) ==> r
  {
    if BothAces(a, b) then false else MapToValue(a, false) < MapToValue(b, true)
  }

  /** `__gt__`: the left Ace counts 14 and the right Ace 1, so two Aces are not
      above each other and a lone Ace wins either way round. */
  predicate Gt(a: Card, b: Card): (r: bool)
    ensures a.rank != Ace && b.rank != Ace ==> (r <==> ValAsNum(a) > ValAsNum(b))
    ensures a.rank == Ace && b.rank == Ace ==> !r
    ensures (a.rank == Ace) != (b.rank == Ace) ==> r
  {
    if BothAces(a, b) then false else MapToValue(a, true) > MapToValue(b, false)
  }

  /** `__ge__`: as `__gt__` but two Aces tie and pass. */
  predicate Ge(a: Card, b: Card): (r: bool)
    ensures a.rank != Ace && b.rank != Ace ==> (r <==> ValAsNum(a) >= ValAsNum(b))
    ensures a.rank == Ace && b.rank == Ace ==> r
    ensures (a.rank == Ace) != (b.rank == Ace) ==> r
  {
    if BothAces(a, b) then true else MapToValue(a, true) >= MapToValue(b, false)
  }

  /** `__le__`: as `__lt__` but two Aces tie and pass. */
  predicate Le(a: Card, b: Card): (r: bool)
    ensures a.rank != Ace && b.rank != Ace ==> (r <==> ValAsNum(a) <= ValAsNum(b))
    ensures a.rank == Ace && b.rank == Ace ==> r
    ensures (a.rank == Ace) != (b.rank == Ace) ==> r
  {
    if BothAces(a, b) then true else MapToValue(a, false) <= MapToValue(b, true)
  }

  /** Two Aces tie whatever their suits, yet equality still needs the suits. */
  lemma CompareAces(a: Card, b: Card)
    requires a.rank == Ace && b.rank == Ace
    ensures !Lt(a, b) && !Gt(a, b) && Le(a, b) && Ge(a, b)
    ensures Equal(a, b) <==> a.suit == b.suit
  {
  }

  /** `>` is the converse of `<` and `>=` the converse of `<=`. */
  lemma ComparisonsConverse(a: Card, b: Card)
    ensures Gt(a, b) == Lt(b, a)
    ensures Ge(a, b) == Le(b, a)
  {
  }

  /** Rank and suit names as `format` writes them. */
  function RankName(r: Rank): string {
    match r
    case Ace => "Ace"
    case Two => "Two"
    case Three => "Three"
    case Four => "Four"
    case Five => "Five"
    case Six => "Six"
    case Seven => "Seven"
    case Eight => "Eight"
    case Nine => "Nine"
    case Ten => "Ten"
    case Jack => "Jack"
    case Queen => "Queen"
    case King => "King"
  }

  function SuitName(s: Suit): string {
    match s
    case Club => "Clubs"
    case Heart => "Hearts"
    case Spade => "Spades"
    case Diamond => "Diamonds"
  }

  /** The keys of `parse`'s lookup tables: the names lower-cased. */
  function RankKey(r: Rank): (k: string)
    ensures k == Lower(RankName(r))
  {
    match r
    case Ace => "ace"
    case Two => "two"
    case Three => "three"
    case Four => "four"
    case Five => "five"
    case Six => "six"
    case Seven => "seven"
    case Eight => "eight"
    case Nine => "nine"
    case Ten => "ten"
    case Jack => "jack"
    case Queen => "queen"
    case King => "king"
  }

  function SuitKey(s: Suit): (k: string)
    ensures k == Lower(SuitName(s))
  {
    match s
    case Club => "clubs"
    case Heart => "hearts"
    case Spade => "spades"
    case Diamond => "diamonds"
  }

  /** `valueMap[w]`: the rank whose key is `w`, if any. */
  function RankOfKey(w: string): (r: Option<Rank>)
    ensures forall k :: r == Some(k) <==> RankKey(k) == w
  {
    if w == "ace" then Some(Ace)
    else if w == "two" then Some(Two)
    else if w == "three" then Some(Three)
    else if w == "four" then Some(Four)
    else if w == "five" then Some(Five)
    else if w == "six" then Some(Six)
    else if w == "seven" then Some(Seven)
    else if w == "eight" then Some(Eight)
    else if w == "nine" then Some(Nine)
    else if w == "ten" then Some(Ten)
    else if w == "jack" then Some(Jack)
    else if w == "queen" then Some(Queen)
    else if w == "king" then Some(King)
    else None
  }

  /** `suitMap[w]`. */
  function SuitOfKey(w: string): (r: Option<Suit>)
    ensures forall u :: r == Some(u) <==> SuitKey(u) == w
  {
    if w == "clubs" then Some(Club)
    else if w == "hearts" then Some(Heart)
    else if w == "spades" then Some(Spade)
    else if w == "diamonds" then Some(Diamond)
    else None
  }

  /** `Card.format`: the rank name, "of" and the suit name, which `split`
      reads back as exactly those three tokens. */
  function Format(c: Card): (s: string)
    ensures Split(s) == [RankName(c.rank), "of", SuitName(c.suit)]
  {
    FormatWords(c);
    RankName(c.rank) + " of " + SuitName(c.suit)
  }

  lemma FormatWords(c: Card)
    ensures Split(RankName(c.rank) + " of " + SuitName(c.suit)) == [RankName(c.rank), "of", SuitName(c.suit)]
  {
    var ws := [RankName(c.rank), "of", SuitName(c.suit)];
    assert Unwords([SuitName(c.suit)]) == SuitName(c.suit);
    assert ws[1..] == ["of", SuitName(c.suit)];
    assert Unwords(ws[1..]) == "of " + SuitName(c.suit);
    assert RankName(c.rank) + " of " + SuitName(c.suit) == Unwords(ws);
    assert forall k :: 0 <= k < |ws| ==> IsWord(ws[k]) by {
      NamesAreWords(c);
      assert IsWord("of") by { LettersAreWord("of"); }
    }
    SplitUnwords(ws);
  }

  /** `Card.parse`: exactly three whitespace-separated tokens, the first a
      rank name and the third a suit name, both case-insensitive; the middle
      token is never looked at. */
  function Parse(s: string): (r: Option<Card>)
    ensures forall c {:trigger Some(c)} :: r == Some(c) <==>
      && |Split(s)| == 3
      && RankKey(c.rank) == Lower(Split(s)[0])
      && SuitKey(c.suit) == Lower(Split(s)[2])
  {
    var tokens := Split(s);
    if |tokens| == 3 then
      match (RankOfKey(Lower(tokens[0])), SuitOfKey(Lower(tokens[2])))
      case (Some(rank), Some(suit)) => Some(Card(rank, suit))
      case _ => None
    else None
  }

  /** Every card's text form parses back to the card. */
  lemma ParseFormat(c: Card)
    ensures Parse(Format(c)) == Some(c)
  {
    var tokens := Split(Format(c));
    assert |tokens| == 3 && tokens[0] == RankName(c.rank) && tokens[2] == SuitName(c.suit);
  }

  /** The names hold letters only, so neither is broken up by `split`. */
  lemma NamesAreWords(c: Card)
    ensures IsWord(RankName(c.rank)) && IsWord(SuitName(c.suit))
  {
    LettersAreWord(RankName(c.rank));
    LettersAreWord(SuitName(c.suit));
  }

  /** Parsing ignores letter case. */
  lemma ParseIgnoresCase(s: string)
    ensures Parse(Lower(s)) == Parse(s)
  {
    SplitLower(s);
    var t := Split(s);
    if |t| == 3 {
      LowerIdempotent(t[0]);
      LowerIdempotent(t[2]);
    }
  }

  /** Parsing depends only on the first and third tokens. */
  lemma ParseIgnoresMiddle(s: string, s': string)
    requires |Split(s)| == 3 && |Split(s')| == 3
    requires Split(s)[0] == Split(s')[0] && Split(s)[2] == Split(s')[2]
    ensures Parse(s) == Parse(s')
  {
  }
}

=== FILE: catalogue.dfy ===
/** The nine secret rules shipped in rules.py, as evaluation functions of the
    rule engine, and what each of them means for the main line. */
module Catalogue {
  import opened Wrappers
  import opened Cards
  import opened Lines
  import opened Rules

  /** The entries of the `rules` list, in list order. */
  datatype Entry =
    | AlternateColor    // last red, play black; last black, play red
    | SuitCycle         // spade -> heart -> diamond -> club -> spade
    | ColorTriples      // three red, three black, three red, ...
    | AlternateParity   // last odd, play even; last even, play odd
    | LowHigh           // last Ace..7, play 8..King; and the other way round
    | TurnCorner        // 1, 2 or 3 higher, counting on past King to Ace
    | OddRed            // last odd, play red; last even, play black
    | SuitOrNumber      // same suit or same number as the last card
    | BlackLowRedHigh   // after black, equal or lower; after red, equal or higher

  const Entries: seq<Entry> :=
    [AlternateColor, SuitCycle, ColorTriples, AlternateParity, LowHigh,
     TurnCorner, OddRed, SuitOrNumber, BlackLowRedHigh]

  /** `m[-1]`. */
  function Last(m: seq<Card>): Card
    requires |m| > 0
  {
    m[|m| - 1]
  }

  /** The dictionary of the suit-cycle rule. */
  function NextSuit(s: Suit): Suit {
    match s
    case Spade => Heart
    case Heart => Diamond
    case Diamond => Club
    case Club => Spade
  }

  /** The loop of `threeInARow`, from step `i` (counting 1, 2, 3 from the end
      of `m`) with the colour seen so far and the count so far. An index past
      the start of `m` raises IndexError, which the loop catches as `break`. */
  function RunFrom(m: seq<Card>, i: nat, color: Option<Color>, count: nat): (Option<Color>, nat)
    requires 1 <= i <= 4
    decreases 4 - i
  {
    if i > 3 || i > |m| then (color, count)
    else
      var here := ColorOf(m[|m| - i]);
      if color == None then RunFrom(m, i + 1, Some(here), count + 1)
      else if color != Some(here) then (color, count)
      else RunFrom(m, i + 1, color, count + 1)
  }

  /** `threeInARow(c, m, d, h)`: after three of a colour, change colour;
      otherwise keep it. With no colour seen (an empty main line) the card
      is compared with `None` and rejected. */
  function ColorTriplesAccepts(c: Card, m: seq<Card>): bool {
    var (color, count) := RunFrom(m, 1, None, 0);
    if count == 3 then Some(ColorOf(c)) != color else Some(ColorOf(c)) == color
  }

  /** The callback of each entry on the card `c` and the main view `m`. Every
      entry but `threeInARow` reads `m[-1]` first and so raises on an empty
      main line. */
  function Judge(e: Entry, c: Card, m: seq<Card>): (v: Verdict)
    ensures v == Raise <==> |m| == 0 && e != ColorTriples
  {
    if e == ColorTriples then FromBool(ColorTriplesAccepts(c, m))
    else if |m| == 0 then Raise
    else
      var l := Last(m);
      FromBool(
        match e
        case AlternateColor => ColorOf(l) != ColorOf(c)
        case SuitCycle => NextSuit(l.suit) == c.suit
        case AlternateParity => ValAsNum(c) % 2 != ValAsNum(l) % 2
        case LowHigh =>
          (ValAsNum(l) <= 7 && ValAsNum(c) > 7) || (ValAsNum(l) >= 8 && ValAsNum(c) < 8)
        case TurnCorner =>
          (1 <= ValAsNum(c) - ValAsNum(l) <= 3) || (-12 <= ValAsNum(c) - ValAsNum(l) <= -10)
        case OddRed =>
          if ValAsNum(l) % 2 == 1 then ColorOf(c) == Red else ColorOf(c) == Black
        case SuitOrNumber => c.suit == l.suit || ValAsNum(c) == ValAsNum(l)
        case BlackLowRedHigh =>
          if ColorOf(l) == Black then ValAsNum(c) <= ValAsNum(l) else ValAsNum(c) >= ValAsNum(l)
        case ColorTriples => false)
  }

  /** A short description of each entry. */
  function Title(e: Entry): string {
    match e
    case AlternateColor => "alternate red and black"
    case SuitCycle => "spade, heart, diamond, club, in a cycle"
    case ColorTriples => "three red, then three black, and so on"
    case AlternateParity => "alternate odd and even numbers"
    case LowHigh => "alternate Ace to 7 and 8 to King"
    case TurnCorner => "1, 2 or 3 higher, turning the corner"
    case OddRed => "after an odd number red, after an even number black"
    case SuitOrNumber => "same suit or same number"
    case BlackLowRedHigh => "after black equal or lower, after red equal or higher"
  }

  /** The `Rule` object of each entry: a base rule whose test, in any
      context, is the entry's callback on the main view alone. */
  function RuleOf(e: Entry): (r: Rule)
    ensures r.Base? && r.title == Title(e)
    ensures forall ctx, c :: Test(r, ctx, c) == Judge(e, c, MainLine(ctx.line))
  {
    Base(Title(e), (c, m, d, h) => Judge(e, c, m))
  }

  /** Every entry but `threeInARow` looks at the last card only, and
      `threeInARow` at the last three. */
  lemma LooksAtTail(e: Entry, c: Card, m: seq<Card>)
    requires |m| > 0
    ensures e != ColorTriples ==> Judge(e, c, m) == Judge(e, c, [Last(m)])
    ensures |m| >= 3 ==> Judge(e, c, m) == Judge(e, c, m[|m| - 3..])
  {
    if e == ColorTriples && |m| >= 3 {
      RunFromTail(m, m[|m| - 3..]);
    }
  }

  lemma RunFromTail(m: seq<Card>, t: seq<Card>)
    requires |m| >= 3 && t == m[|m| - 3..]
    ensures RunFrom(m, 1, None, 0) == RunFrom(t, 1, None, 0)
  {
    assert t[2] == m[|m| - 1] && t[1] == m[|m| - 2] && t[0] == m[|m| - 3];
  }

  // ---------------------------------------------------------------------
  // The one-card rules, each against an independent reading of its text

  /** Alternate colour: the card must be of the other colour, and a line
      built by this rule alternates from its first card on. */
  predicate Alternates(m: seq<Card>) {
    forall i :: 0 < i < |m| ==> ColorOf(m[i]) != ColorOf(m[i - 1])
  }

  lemma AlternateColorKeepsAlternation(c: Card, m: seq<Card>)
    requires |m| > 0 && Alternates(m)
    ensures Alternates(m + [c]) <==> Judge(AlternateColor, c, m) == Pass
  {
    var m' := m + [c];
    assert forall i :: 0 <= i < |m| ==> m'[i] == m[i];
    assert m'[|m|] == c && m'[|m| - 1] == Last(m);
  }

  /** The suit cycle visits every suit: four steps return to the start and no
      shorter walk does, so exactly one suit follows each suit. */
  function Step(s: Suit, k: nat): Suit {
    if k == 0 then s else NextSuit(Step(s, k - 1))
  }

  lemma SuitCycleIsFourCycle(s: Suit)
    ensures Step(s, 4) == s
    ensures forall k :: 1 <= k < 4 ==> Step(s, k) != s
  {
    assert Step(s, 1) == NextSuit(s) && Step(s, 2) == NextSuit(NextSuit(s))
      && Step(s, 3) == NextSuit(NextSuit(NextSuit(s)));
  }

  /** How many steps of the cycle lead from `s` to `t`: every suit is
      reached within four. */
  function StepsTo(s: Suit, t: Suit): (k: nat)
    ensures k < 4 && Step(s, k) == t
  {
    if s == t then 0
    else if NextSuit(s) == t then 1
    else if NextSuit(NextSuit(s)) == t then 2
    else 3
  }

  lemma SuitCycleAccepts(c: Card, m: seq<Card>)
    requires |m| > 0
    ensures Judge(SuitCycle, c, m) == Pass <==> c.suit == Step(Last(m).suit, 1)
    ensures Judge(SuitCycle, c, m) == Pass ==> c.suit != Last(m).suit
  {
    SuitCycleIsFourCycle(Last(m).suit);
  }

  /** Parity: the two numbers must add up to an odd number, so a card of the
      same rank as the last one never passes. */
  lemma AlternateParityAccepts(c: Card, m: seq<Card>)
    requires |m| > 0
    ensures Judge(AlternateParity, c, m) == Pass <==> (ValAsNum(c) + ValAsNum(Last(m))) % 2 == 1
    ensures c.rank == Last(m).rank ==> Judge(AlternateParity, c, m) == Fail
  {
    NumberDeterminesRank(c, Last(m));
  }

  /** Low/high: the card must be on the other side of 7/8 than the last one;
      exactly one of the two halves is ever available. */
  predicate Low(c: Card) {
    ValAsNum(c) <= 7
  }

  lemma LowHighAccepts(c: Card, m: seq<Card>)
    requires |m| > 0
    ensures Judge(LowHigh, c, m) == Pass <==> Low(c) != Low(Last(m))
  {
  }

  /** Turning the corner: counting on from the last card's number, past King
      back to Ace, the card is one of the next three numbers. */
  lemma TurnCornerAccepts(c: Card, m: seq<Card>)
    requires |m| > 0
    ensures Judge(TurnCorner, c, m) == Pass <==>
      exists k :: 1 <= k <= 3 && ValAsNum(c) == Ahead(ValAsNum(Last(m)), k)
  {
    var v, w := ValAsNum(c), ValAsNum(Last(m));
    var near := v == Ahead(w, 1) || v == Ahead(w, 2) || v == Ahead(w, 3);
    assert Judge(TurnCorner, c, m) == Pass <==> near by {
      assert Judge(TurnCorner, c, m) == Pass <==> (1 <= v - w <= 3 || -12 <= v - w <= -10);
      AheadBy(w, 1);
      AheadBy(w, 2);
      AheadBy(w, 3);
    }
    if near {
      var k := if v == Ahead(w, 1) then 1 else if v == Ahead(w, 2) then 2 else 3;
      assert v == Ahead(w, k);
    } else {
      forall k | 1 <= k <= 3 ensures v != Ahead(w, k) {
        assert k == 1 || k == 2 || k == 3;
      }
    }
  }

  /** The number `k` places after `w` on the clock face 1..13. */
  function Ahead(w: int, k: int): int {
    (w - 1 + k) % 13 + 1
  }

  /** A step of one to three places wraps past King at most once. */
  lemma AheadBy(w: int, k: int)
    requires 1 <= w <= 13 && 1 <= k <= 3
    ensures Ahead(w, k) == if w + k <= 13 then w + k else w + k - 13
  {
    var s := w - 1 + k;
    if s >= 13 {
      assert s == 13 * 1 + (s - 13);
    }
  }

  /** Odd-red: the card's colour is decided by the parity of the last number. */
  lemma OddRedAccepts(c: Card, m: seq<Card>)
    requires |m| > 0
    ensures Judge(OddRed, c, m) == Pass <==> (ColorOf(c) == Red <==> ValAsNum(Last(m)) % 2 == 1)
  {
  }

  /** Suit-or-number: matching in suit or in rank; in particular a second
      copy of the last card always passes. */
  lemma SuitOrNumberAccepts(c: Card, m: seq<Card>)
    requires |m| > 0
    ensures Judge(SuitOrNumber, c, m) == Pass <==> c.suit == Last(m).suit || c.rank == Last(m).rank
    ensures c == Last(m) ==> Judge(SuitOrNumber, c, m) == Pass
  {
    NumberDeterminesRank(c, Last(m));
  }

  /** Black-low/red-high: a card of the same number always passes; an Ace
      always passes after black and a King after red. */
  lemma BlackLowRedHighAccepts(c: Card, m: seq<Card>)
    requires |m| > 0
    ensures c.rank == Last(m).rank ==> Judge(BlackLowRedHigh, c, m) == Pass
    ensures c.rank == Ace && ColorOf(Last(m)) == Black ==> Judge(BlackLowRedHigh, c, m) == Pass
    ensures c.rank == King && ColorOf(Last(m)) == Red ==> Judge(BlackLowRedHigh, c, m) == Pass
    ensures Judge(BlackLowRedHigh, c, m) == Fail <==>
      (if ColorOf(Last(m)) == Black then ValAsNum(c) > ValAsNum(Last(m))
       else ValAsNum(c) < ValAsNum(Last(m)))
  {
    NumberDeterminesRank(c, Last(m));
  }

  // ---------------------------------------------------------------------
  // threeInARow

  /** The number of cards at the end of `m` that share the colour of its
      last card. */
  function Streak(m: seq<Card>): (n: nat)
    ensures n <= |m|
    ensures |m| > 0 ==> n >= 1
    ensures forall i :: |m| - n <= i < |m| ==> ColorOf(m[i]) == ColorOf(m[|m| - 1])
    ensures n < |m| ==> ColorOf(m[|m| - 1 - n]) != ColorOf(m[|m| - 1])
  {
    if |m| <= 1 then |m|
    else if ColorOf(m[|m| - 2]) != ColorOf(m[|m| - 1]) then 1
    else 1 + Streak(m[..|m| - 1])
  }

  function Min(a: nat, b: nat): nat {
    if a <= b then a else b
  }

  /** The loop counts the streak, capped at three, and remembers the colour
      of the last card. */
  lemma RunFromCountsStreak(m: seq<Card>)
    ensures RunFrom(m, 1, None, 0) ==
      (if |m| == 0 then None else Some(ColorOf(Last(m))), Min(Streak(m), 3))
  {
    if |m| > 0 {
      var s := Streak(m);
      var col := Some(ColorOf(Last(m)));
      assert RunFrom(m, 1, None, 0) == RunFrom(m, 2, col, 1);
      if |m| >= 2 && s >= 2 {
        assert ColorOf(m[|m| - 2]) == ColorOf(Last(m));
        assert RunFrom(m, 2, col, 1) == RunFrom(m, 3, col, 2);
        if |m| >= 3 && s >= 3 {
          assert ColorOf(m[|m| - 3]) == ColorOf(Last(m));
        }
      }
    }
  }

  /** `threeInARow` rejects everything on an empty main line; otherwise it
      asks for the other colour after a streak of three or more and for the
      same colour after a shorter one. */
  lemma ColorTriplesAcceptsIff(c: Card, m: seq<Card>)
    ensures Judge(ColorTriples, c, m) == Pass <==>
      |m| > 0 && (ColorOf(c) == ColorOf(Last(m)) <==> Streak(m) < 3)
  {
    RunFromCountsStreak(m);
  }

  /** The pattern the rule describes, measured from the first card of the
      main line: positions 0-2 share its colour, 3-5 have the other one, and
      so on. */
  predicate InTriples(m: seq<Card>) {
    forall i :: 0 <= i < |m| ==> (ColorOf(m[i]) == ColorOf(m[0]) <==> (i / 3) % 2 == 0)
  }

  /** Moving from position `k` to `k + 1` changes block parity exactly when
      `k` closes a block of three. */
  lemma BlockStep(k: nat)
    ensures k % 3 == 2 ==> ((k + 1) / 3) % 2 != (k / 3) % 2 && (k + 1) % 3 == 0
    ensures k % 3 != 2 ==> ((k + 1) / 3) % 2 == (k / 3) % 2 && (k + 1) % 3 == k % 3 + 1
  {
    var q := k / 3;
    assert k == 3 * q + k % 3;
    if k % 3 == 2 {
      assert k + 1 == 3 * (q + 1);
      assert (k + 1) / 3 == q + 1;
    } else {
      assert k + 1 == 3 * q + (k % 3 + 1);
      assert (k + 1) / 3 == q;
    }
  }

  /** A line in triples stays in triples with `c` appended exactly when `c`
      has the colour the position `|m|` calls for. */
  lemma InTriplesSnoc(m: seq<Card>, c: Card)
    requires |m| > 0 && InTriples(m)
    ensures InTriples(m + [c]) <==> (ColorOf(c) == ColorOf(m[0]) <==> (|m| / 3) % 2 == 0)
  {
    var m' := m + [c];
    assert forall i :: 0 <= i < |m| ==> m'[i] == m[i];
    assert m'[|m|] == c;
  }

  /** On a line in triples the streak is the position within the current
      block of three. */
  lemma {:induction false} TriplesStreak(m: seq<Card>)
    requires |m| > 0 && InTriples(m)
    ensures Streak(m) == (|m| - 1) % 3 + 1
    decreases |m|
  {
    var n := |m|;
    if n > 1 {
      var p := m[..n - 1];
      assert forall i :: 0 <= i < |p| ==> p[i] == m[i];
      assert InTriples(p);
      var same := ColorOf(m[n - 2]) == ColorOf(m[n - 1]);
      var k := n - 2;
      assert same <==> (k / 3) % 2 == ((k + 1) / 3) % 2;
      BlockStep(k);
      if k % 3 == 2 {
        assert !same;
        assert Streak(m) == 1;
      } else {
        assert same;
        TriplesStreak(p);
        assert Streak(m) == 1 + Streak(p);
      }
    }
  }

  /** Starting from any seed card, `threeInARow` accepts exactly the cards
      that continue the triples pattern: the rule keeps the main line in
      triples. */
  lemma ColorTriplesKeepsTriples(c: Card, m: seq<Card>)
    requires |m| > 0 && InTriples(m)
    ensures InTriples(m + [c]) <==> Judge(ColorTriples, c, m) == Pass
  {
    var k := |m| - 1;
    TriplesStreak(m);
    ColorTriplesAcceptsIff(c, m);
    InTriplesSnoc(m, c);
    BlockStep(k);
    assert k + 1 == |m|;
    var lastEven, nextEven := (k / 3) % 2 == 0, ((k + 1) / 3) % 2 == 0;
    assert ColorOf(Last(m)) == ColorOf(m[0]) <==> lastEven;
    if k % 3 == 2 {
      assert Streak(m) == 3 && lastEven != nextEven;
    } else {
      assert Streak(m) < 3 && lastEven == nextEven;
    }
  }

  /** Hence a main line grown by `threeInARow` never holds four cards of one
      colour in a row. */
  lemma TriplesNoFourInARow(m: seq<Card>, i: nat)
    requires InTriples(m) && i + 3 < |m|
    ensures !(ColorOf(m[i]) == ColorOf(m[i + 1]) == ColorOf(m[i + 2]) == ColorOf(m[i + 3]))
  {
    assert (i / 3) % 2 != ((i + 3) / 3) % 2;
    var j := if i % 3 == 0 then i + 2 else if i % 3 == 1 then i + 1 else i;
    assert (j / 3) % 2 != ((j + 1) / 3) % 2;
  }

  /** A seed card alone is in triples and alternates. */
  lemma SeedIsPattern(c: Card)
    ensures InTriples([c]) && Alternates([c])
  {
  }

  // ---------------------------------------------------------------------
  // Every entry leaves the player a card to play and a card to avoid

  /** A card that `e` accepts after the main line `m`. */
  function Accepted(e: Entry, m: seq<Card>): (c: Card)
    requires |m| > 0
    ensures Judge(e, c, m) == Pass
  {
    var l := Last(m);
    match e
    case AlternateColor => Card(l.rank, if ColorOf(l) == Red then Spade else Heart)
    case SuitCycle => Card(l.rank, NextSuit(l.suit))
    case ColorTriples =>
      RunFromCountsStreak(m);
      if Streak(m) < 3 then l else Card(l.rank, if ColorOf(l) == Red then Spade else Heart)
    case AlternateParity => Card(if ValAsNum(l) % 2 == 0 then Ace else Two, l.suit)
    case LowHigh => Card(if ValAsNum(l) <= 7 then King else Ace, l.suit)
    case TurnCorner => Card(if l.rank == King then Ace else NextRank(l.rank), l.suit)
    case OddRed => Card(l.rank, if ValAsNum(l) % 2 == 1 then Heart else Spade)
    case SuitOrNumber => l
    case BlackLowRedHigh => l
  }

  /** After a black King or a red Ace every card passes
      black-low/red-high: the rule then rejects nothing. */
  predicate AcceptsAll(e: Entry, m: seq<Card>)
    requires |m| > 0
  {
    e == BlackLowRedHigh &&
    ((ColorOf(Last(m)) == Black && Last(m).rank == King) ||
     (ColorOf(Last(m)) == Red && Last(m).rank == Ace))
  }

  lemma AcceptsAllCards(e: Entry, m: seq<Card>, c: Card)
    requires |m| > 0 && AcceptsAll(e, m)
    ensures Judge(e, c, m) == Pass
  {
  }

  /** A card that `e` rejects after the main line `m`, whenever there is one. */
  function Rejected(e: Entry, m: seq<Card>): (c: Card)
    requires |m| > 0 && !AcceptsAll(e, m)
    ensures Judge(e, c, m) == Fail
  {
    var l := Last(m);
    match e
    case AlternateColor => l
    case SuitCycle => l
    case ColorTriples =>
      RunFromCountsStreak(m);
      if Streak(m) >= 3 then l else Card(l.rank, if ColorOf(l) == Red then Spade else Heart)
    case AlternateParity => l
    case LowHigh => l
    case TurnCorner => l
    case OddRed => Card(l.rank, if ValAsNum(l) % 2 == 1 then Spade else Heart)
    case SuitOrNumber =>
      Card(if l.rank == King then Ace else NextRank(l.rank), NextSuit(l.suit))
    case BlackLowRedHigh =>
      if ColorOf(l) == Black then
        Card(NextRank(l.rank), l.suit)
      else
        Card(PrevRank(l.rank), l.suit)
  }

  /** The next rank up (King has none). */
  function NextRank(r: Rank): (s: Rank)
    requires r != King
    ensures ValAsNum(Card(s, Heart)) == ValAsNum(Card(r, Heart)) + 1
  {
    match r
    case Ace => Two
    case Two => Three
    case Three => Four
    case Four => Five
    case Five => Six
    case Six => Seven
    case Seven => Eight
    case Eight => Nine
    case Nine => Ten
    case Ten => Jack
    case Jack => Queen
    case Queen => King
  }

  /** The next rank down (Ace has none). */
  function PrevRank(r: Rank): (s: Rank)
    requires r != Ace
    ensures ValAsNum(Card(s, Heart)) == ValAsNum(Card(r, Heart)) - 1
  {
    match r
    case Two => Ace
    case Three => Two
    case Four => Three
    case Five => Four
    case Six => Five
    case Seven => Six
    case Eight => Seven
    case Nine => Eight
    case Ten => Nine
    case Jack => Ten
    case Queen => Jack
    case King => Queen
  }
}

=== FILE: decks.dfy ===
/** The deck (`Deck` in cardobjects.py): a stack of cards dealt from the end
    that refills itself with a freshly shuffled set when empty. */
module Decks {
  import opened Cards

  /** The loop order of `foldInDeck`: suits outer, values inner. */
  const SuitOrder: seq<Suit> := [Heart, Club, Diamond, Spade]
  const RankOrder: seq<Rank> := [Ace, Two, Three, Four, Five, Six, Seven, Eight, Nine, Ten, Jack, Queen, King]

  function SuitIndex(s: Suit): (i: nat)
    ensures i < 4 && SuitOrder[i] == s
  {
    match s
    case Heart => 0
    case Club => 1
    case Diamond => 2
    case Spade => 3
  }

  /** A rank's place in `values` is its low-Ace number minus one. */
  function RankIndex(r: Rank): (i: nat)
    ensures i < 13 && RankOrder[i] == r
    ensures i == ValAsNum(Card(r, Heart)) - 1
  {
    ValAsNum(Card(r, Heart)) - 1
  }

  lemma OrdersInjective()
    ensures forall i :: 0 <= i < 4 ==> SuitIndex(SuitOrder[i]) == i
    ensures forall i :: 0 <= i < 13 ==> RankIndex(RankOrder[i]) == i
  {
  }

  predicate Distinct(s: seq<Card>) {
    forall i, j :: 0 <= i < j < |s| ==> s[i] != s[j]
  }

  /** The 52 cards one `foldInDeck` appends, in loop order. */
  function StandardSet(): (s: seq<Card>)
    ensures |s| == 52
  {
    seq(52, i requires 0 <= i < 52 => Card(RankOrder[i % 13], SuitOrder[i / 13]))
  }

  /** The standard set holds every card, each once. */
  lemma StandardSetComplete()
    ensures forall c: Card :: c in StandardSet()
    ensures Distinct(StandardSet())
  {
    var s := StandardSet();
    assert forall i :: 0 <= i < 52 ==> s[i] == Card(RankOrder[i % 13], SuitOrder[i / 13]);
    forall c: Card ensures c in s {
      var i := SuitIndex(c.suit) * 13 + RankIndex(c.rank);
      assert i % 13 == RankIndex(c.rank) && i / 13 == SuitIndex(c.suit);
      assert s[i] == c;
    }
    OrdersInjective();
    forall i, j | 0 <= i < j < 52 ensures s[i] != s[j] {
      assert i % 13 != j % 13 || i / 13 != j / 13;
      assert RankIndex(s[i].rank) == i % 13 && RankIndex(s[j].rank) == j % 13;
      assert SuitIndex(s[i].suit) == i / 13 && SuitIndex(s[j].suit) == j / 13;
    }
  }

  lemma {:induction false} DistinctCount(s: seq<Card>, c: Card)
    requires Distinct(s)
    ensures multiset(s)[c] == if c in s then 1 else 0
  {
    if |s| > 0 {
      assert s == [s[0]] + s[1..];
      assert Distinct(s[1..]);
      DistinctCount(s[1..], c);
      assert s[0] !in s[1..];
    }
  }

  /** Each card occurs exactly once in the standard set. */
  lemma StandardSetCount(c: Card)
    ensures multiset(StandardSet())[c] == 1
  {
    StandardSetComplete();
    DistinctCount(StandardSet(), c);
  }

  /** `n` standard sets together. */
  function Copies(n: nat): multiset<Card> {
    if n == 0 then multiset{} else Copies(n - 1) + multiset(StandardSet())
  }

  lemma {:induction false} CopiesCount(n: nat, c: Card)
    ensures Copies(n)[c] == n
    ensures |Copies(n)| == 52 * n
  {
    if n > 0 {
      CopiesCount(n - 1, c);
      StandardSetCount(c);
    }
  }

  lemma {:induction false} CopiesAdd(a: nat, b: nat)
    ensures Copies(a + b) == Copies(a) + Copies(b)
  {
    if b > 0 {
      CopiesAdd(a, b - 1);
    }
  }

  /** The random shuffle, as an arbitrary rearrangement: whatever function
      is chosen, it keeps every card and adds none. */
  type Shuffle = f: seq<Card> -> seq<Card> | forall s :: multiset(f(s)) == multiset(s)
    witness (s: seq<Card>) => s

  /** `foldInDeck`: append one standard set, then shuffle the whole deck. */
  function FoldInDeck(cards: seq<Card>, shuffle: Shuffle): (r: seq<Card>)
    ensures multiset(r) == multiset(cards) + multiset(StandardSet())
    ensures |r| == |cards| + 52
  {
    var r := shuffle(cards + StandardSet());
    assert |multiset(r)| == |r|;
    r
  }

  /** `Deck(n)`: `n` folds into an empty deck. */
  function NewDeck(n: nat, shuffle: Shuffle): (r: seq<Card>)
    ensures multiset(r) == Copies(n)
    ensures |r| == 52 * n
  {
    if n == 0 then [] else FoldInDeck(NewDeck(n - 1, shuffle), shuffle)
  }

  /** A fresh deck of `n` sets holds each card exactly `n` times. */
  lemma NewDeckCounts(n: nat, shuffle: Shuffle, c: Card)
    ensures multiset(NewDeck(n, shuffle))[c] == n
  {
    CopiesCount(n, c);
  }

  /** One standard set in the order a shuffle left it: what `foldInDeck`
      produces from an empty deck. */
  predicate IsShuffledSet(refill: seq<Card>) {
    multiset(refill) == multiset(StandardSet())
  }

  lemma ShuffledSetSize(refill: seq<Card>)
    requires IsShuffledSet(refill)
    ensures |refill| == 52
  {
    assert |multiset(refill)| == |refill|;
  }

  /** The card dealt, what is left, and whether a refill was folded in. */
  datatype Dealt = Dealt(card: Card, rest: seq<Card>, refilled: bool)

  function Refills(refilled: bool): nat {
    if refilled then 1 else 0
  }

  /** Popping the last card keeps it and the rest. */
  lemma PopConserves(deck: seq<Card>)
    requires |deck| > 0
    ensures deck[..|deck| - 1] + [deck[|deck| - 1]] == deck
    ensures multiset(deck[..|deck| - 1]) + multiset{deck[|deck| - 1]} == multiset(deck)
  {
    assert deck == deck[..|deck| - 1] + [deck[|deck| - 1]];
  }

  /** `deal`: pop the last card; on an empty deck first fold in a new set,
      shuffled into the order `refill`. */
  function Deal(deck: seq<Card>, refill: seq<Card>): (r: Dealt)
    requires IsShuffledSet(refill)
    ensures r.refilled <==> |deck| == 0
    ensures |r.rest| == if |deck| > 0 then |deck| - 1 else 51
  {
    ShuffledSetSize(refill);
    if |deck| > 0 then
      PopConserves(deck);
      Dealt(deck[|deck| - 1], deck[..|deck| - 1], false)
    else
      PopConserves(refill);
      Dealt(refill[51], refill[..51], true)
  }

  /** A deal takes the top card: the rest with the card put back is the
      deck, or the refill when the deck was empty. */
  lemma DealPops(deck: seq<Card>, refill: seq<Card>)
    requires IsShuffledSet(refill)
    ensures var r := Deal(deck, refill);
      r.rest + [r.card] == if |deck| > 0 then deck else refill
  {
    if |deck| > 0 {
      PopConserves(deck);
    } else {
      ShuffledSetSize(refill);
      PopConserves(refill);
    }
  }

  /** A deal keeps every card: the one dealt plus the rest are the deck,
      plus one standard set when it had to refill. */
  lemma DealConserves(deck: seq<Card>, refill: seq<Card>)
    requires IsShuffledSet(refill)
    ensures var r := Deal(deck, refill);
      multiset(r.rest) + multiset{r.card} == multiset(deck) + Copies(Refills(r.refilled))
  {
    var r := Deal(deck, refill);
    if |deck| > 0 {
      PopConserves(deck);
    } else {
      PopConserves(refill);
      assert Copies(1) == multiset(StandardSet());
    }
  }

  /** The cards dealt (first dealt first), what is left, and how many
      refills were folded in. */
  datatype Dealing = Dealing(cards: seq<Card>, rest: seq<Card>, refills: nat)

  function Reverse(s: seq<Card>): (r: seq<Card>)
    ensures |r| == |s|
    ensures forall i :: 0 <= i < |s| ==> r[i] == s[|s| - 1 - i]
  {
    if |s| == 0 then [] else [s[|s| - 1]] + Reverse(s[..|s| - 1])
  }

  /** `k` calls of `deal`: the first `k - 1`, then one more from what they
      left. */
  function DealMany(deck: seq<Card>, k: nat, refill: seq<Card>): (r: Dealing)
    requires IsShuffledSet(refill)
    ensures |r.cards| == k && r.refills <= k
    decreases k
  {
    if k == 0 then Dealing([], deck, 0)
    else
      var m := DealMany(deck, k - 1, refill);
      var d := Deal(m.rest, refill);
      Dealing(m.cards + [d.card], d.rest, m.refills + Refills(d.refilled))
  }

  /** Counted card by card: one deal keeps every copy of `c`, and a refill
      adds exactly one. */
  lemma DealCounts(deck: seq<Card>, refill: seq<Card>, c: Card)
    requires IsShuffledSet(refill)
    ensures var d := Deal(deck, refill);
      multiset(d.rest)[c] + multiset{d.card}[c] == multiset(deck)[c] + Refills(d.refilled)
  {
    var d := Deal(deck, refill);
    DealConserves(deck, refill);
    CopiesCount(Refills(d.refilled), c);
    assert (multiset(d.rest) + multiset{d.card})[c] == (multiset(deck) + Copies(Refills(d.refilled)))[c];
  }

  /** Counted card by card: dealing `k` cards keeps every copy of `c`,
      and each refill adds exactly one more. */
  lemma {:induction false} DealManyCounts(deck: seq<Card>, k: nat, refill: seq<Card>, c: Card)
    requires IsShuffledSet(refill)
    ensures KeepsCount(deck, k, refill, c)
    decreases k
  {
    if k > 0 {
      DealManyCounts(deck, k - 1, refill, c);
      DealManyStep(deck, k, refill, c);
    }
  }

  ghost predicate KeepsCount(deck: seq<Card>, k: nat, refill: seq<Card>, c: Card)
    requires IsShuffledSet(refill)
  {
    var r := DealMany(deck, k, refill);
    multiset(r.cards)[c] + multiset(r.rest)[c] == multiset(deck)[c] + r.refills
  }

  /** The inductive step of `DealManyCounts`: one card more after the first
      `k - 1`. */
  lemma DealManyStep(deck: seq<Card>, k: nat, refill: seq<Card>, c: Card)
    requires IsShuffledSet(refill) && k > 0 && KeepsCount(deck, k - 1, refill, c)
    ensures KeepsCount(deck, k, refill, c)
  {
    var m := DealMany(deck, k - 1, refill);
    var d := Deal(m.rest, refill);
    var r := DealMany(deck, k, refill);
    var x, y, z, one := multiset(m.cards)[c], multiset(m.rest)[c], multiset(d.rest)[c], multiset{d.card}[c];
    assert z + one == y + Refills(d.refilled) by {
      DealCounts(m.rest, refill, c);
    }
    assert multiset(r.cards)[c] == x + one && multiset(r.rest)[c] == z && r.refills == m.refills + Refills(d.refilled) by {
      assert r.cards == m.cards + [d.card] && r.rest == d.rest;
    }
  }

  /** Dealing loses and invents no card; it only adds whole standard sets. */
  lemma DealManyConserves(deck: seq<Card>, k: nat, refill: seq<Card>)
    requires IsShuffledSet(refill)
    ensures var r := DealMany(deck, k, refill);
      multiset(r.cards) + multiset(r.rest) == multiset(deck) + Copies(r.refills)
  {
    var r := DealMany(deck, k, refill);
    forall c ensures (multiset(r.cards) + multiset(r.rest))[c] == (multiset(deck) + Copies(r.refills))[c] {
      DealManyCounts(deck, k, refill, c);
      CopiesCount(r.refills, c);
    }
  }

  /** With at least `k` cards in stock, dealing `k` takes the top `k` cards,
      top first, and folds in nothing. */
  lemma {:induction false} DealManyFromStock(deck: seq<Card>, k: nat, refill: seq<Card>)
    requires IsShuffledSet(refill) && |deck| >= k
    ensures var r := DealMany(deck, k, refill);
      r.refills == 0 && r.rest == deck[..|deck| - k] && r.cards == Reverse(deck[|deck| - k..])
    decreases k
  {
    if k == 0 {
      assert deck[|deck|..] == [];
    } else {
      DealManyFromStock(deck, k - 1, refill);
      TakesTop(deck, k, refill);
    }
  }

  /** Running past the end of the deck: `k` deals from a deck of fewer than
      `k` cards fold in exactly one set when that set covers the shortfall,
      and leave the rest of it. Fifty-three deals from a full deck are one
      such case. */
  lemma {:induction false} DealManyOneRefill(deck: seq<Card>, k: nat, refill: seq<Card>)
    requires IsShuffledSet(refill) && |deck| < k <= |deck| + 52
    ensures var r := DealMany(deck, k, refill);
      r.refills == 1 && |r.rest| == |deck| + 52 - k
    decreases k
  {
    if k == |deck| + 1 {
      DealManyFromStock(deck, |deck|, refill);
      assert DealMany(deck, k - 1, refill).rest == [];
    } else {
      DealManyOneRefill(deck, k - 1, refill);
    }
  }

  ghost predicate TookTop(deck: seq<Card>, k: nat, refill: seq<Card>)
    requires IsShuffledSet(refill) && |deck| >= k
  {
    var r := DealMany(deck, k, refill);
    r.refills == 0 && r.rest == deck[..|deck| - k] && r.cards == Reverse(deck[|deck| - k..])
  }

  /** The inductive step of `DealManyFromStock`. */
  lemma TakesTop(deck: seq<Card>, k: nat, refill: seq<Card>)
    requires IsShuffledSet(refill) && 0 < k <= |deck| && TookTop(deck, k - 1, refill)
    ensures TookTop(deck, k, refill)
  {
    var m := DealMany(deck, k - 1, refill);
    var d := Deal(m.rest, refill);
    var r := DealMany(deck, k, refill);
    assert r.cards == m.cards + [d.card] && r.rest == d.rest && r.refills == m.refills + Refills(d.refilled);
    DealPops(m.rest, refill);
    var top := deck[|deck| - k..];
    assert d.card == top[0];
    assert m.rest[..|m.rest| - 1] == deck[..|deck| - k];
    assert deck[|deck| - (k - 1)..] == top[1..];
  }
}

=== FILE: game.dfy ===
/** A round of the game (`Game` in eleusis.py): setting up hands, deck and
    line (`initializeRound`), one player's turn with its input loop
    (`playTurn`), and the scoring when someone wins (`playerWins`). */
module Game {
  import opened Wrappers
  import opened Cards
  import opened Lines
  import opened Rules
  import opened Decks
  import opened Players
  import opened Turns
  import opened Catalogue

  /** `int(len(players) * STARTING_HAND_SIZE / 40) + 1`: true division then
      truncation, which for these non-negative operands is floor division. */
  function DeckCount(players: nat, handSize: nat): (n: nat)
    ensures n >= 1
  {
    players * handSize / 40 + 1
  }

  /** The starting deck always covers every hand and the seed card, so
      setting up never folds in an extra set. */
  lemma DeckSuffices(players: nat, handSize: nat)
    ensures 52 * DeckCount(players, handSize) >= players * handSize + 1
  {
    var t := players * handSize;
    var q := t / 40;
    assert t == 40 * q + t % 40;
  }

  predicate DistinctNames(names: seq<string>) {
    forall i, j :: 0 <= i < j < |names| ==> names[i] != names[j]
  }

  /** Everything a round keeps: the players, the line, the deck, whether the
      round is still on, who won, the secret rule, and the hand size. */
  datatype Round = Round(
    roster: Roster, line: Line, deck: seq<Card>,
    active: bool, winner: Option<string>, rule: Rule, handSize: nat)

  /** The cards in the hands of the players named, together; a name with
      no record adds nothing. */
  function HandsBag(names: seq<string>, table: map<string, Player>): multiset<Card> {
    if |names| == 0 then multiset{}
    else (if names[0] in table then multiset(table[names[0]].hand) else multiset{}) + HandsBag(names[1..], table)
  }

  /** Every card of the round, wherever it lies. */
  function AllCards(r: Round): multiset<Card> {
    HandsBag(r.roster.names, r.roster.table) + multiset(FullLine(r.line)) + multiset(r.deck)
  }

  // ---------------------------------------------------------------------
  // Setup

  /** `StandardSet()` is a valid refill order; setup never consults it. */
  lemma StandardSetIsShuffled()
    ensures IsShuffledSet(StandardSet())
  {
  }

  /** The players' new hands, what is left of the deck, and how many sets
      were folded in while dealing. */
  datatype HandsDealt = HandsDealt(table: map<string, Player>, rest: seq<Card>, refills: nat)

  /** The loop over the players in setup: each gets a new hand of `handSize`
      cards dealt one by one. */
  function DealHands(names: seq<string>, table: map<string, Player>, deck: seq<Card>, handSize: nat)
    : (r: HandsDealt)
    requires forall i :: 0 <= i < |names| ==> names[i] in table
    ensures r.table.Keys == table.Keys
    decreases |names|
  {
    if |names| == 0 then HandsDealt(table, deck, 0)
    else
      var n := names[0];
      var dealt := DealMany(deck, handSize, StandardSet());
      var t := table[n := table[n].(hand := dealt.cards)];
      assert forall i :: 0 <= i < |names| - 1 ==> names[1..][i] == names[i + 1];
      var r := DealHands(names[1..], t, dealt.rest, handSize);
      HandsDealt(r.table, r.rest, dealt.refills + r.refills)
  }

  /** Dealing the hands only replaces hands: every record stays under its
      name with its score, each player named gets `handSize` cards, and the
      other records are left alone. */
  lemma {:induction false} DealHandsShape(names: seq<string>, table: map<string, Player>, deck: seq<Card>, handSize: nat)
    requires forall i :: 0 <= i < |names| ==> names[i] in table
    ensures var r := DealHands(names, table, deck, handSize);
      && r.table.Keys == table.Keys
      && (forall n :: n in table ==> r.table[n].name == table[n].name && r.table[n].score == table[n].score)
      && (forall i :: 0 <= i < |names| ==> |r.table[names[i]].hand| == handSize)
      && (forall n :: n in table && n !in names ==> r.table[n] == table[n])
    decreases |names|
  {
    if |names| > 0 {
      var n := names[0];
      var dealt := DealMany(deck, handSize, StandardSet());
      var t := table[n := table[n].(hand := dealt.cards)];
      var tail := names[1..];
      assert forall i :: 0 <= i < |tail| ==> tail[i] == names[i + 1];
      DealHandsShape(tail, t, dealt.rest, handSize);
      var r := DealHands(tail, t, dealt.rest, handSize);
      assert DealHands(names, table, deck, handSize).table == r.table;
      forall i | 0 <= i < |names| ensures |r.table[names[i]].hand| == handSize {
        if i > 0 {
          assert names[i] == tail[i - 1];
        } else if n !in tail {
          assert r.table[n] == t[n];
        } else {
          var j :| 0 <= j < |tail| && tail[j] == n;
          assert names[0] == tail[j];
        }
      }
    }
  }

  /** Dealing the hands keeps every card of the deck. */
  lemma {:induction false} DealHandsConserves(names: seq<string>, table: map<string, Player>, deck: seq<Card>, handSize: nat)
    requires forall i :: 0 <= i < |names| ==> names[i] in table
    requires DistinctNames(names)
    ensures var r := DealHands(names, table, deck, handSize);
      HandsBag(names, r.table) + multiset(r.rest) == multiset(deck) + Copies(r.refills)
    decreases |names|
  {
    if |names| > 0 {
      var n := names[0];
      var dealt := DealMany(deck, handSize, StandardSet());
      var t := table[n := table[n].(hand := dealt.cards)];
      var tail := names[1..];
      assert forall i :: 0 <= i < |tail| ==> tail[i] == names[i + 1];
      assert DistinctNames(tail) && n !in tail;
      var r := DealHands(tail, t, dealt.rest, handSize);
      var whole := DealHands(names, table, deck, handSize);
      assert whole == HandsDealt(r.table, r.rest, dealt.refills + r.refills);
      var a, b := multiset(dealt.cards), HandsBag(tail, r.table);
      var c1, c2 := Copies(dealt.refills), Copies(r.refills);
      assert b + multiset(r.rest) == multiset(dealt.rest) + c2 by {
        DealHandsConserves(tail, t, dealt.rest, handSize);
      }
      assert a + multiset(dealt.rest) == multiset(deck) + c1 by {
        DealManyConserves(deck, handSize, StandardSet());
      }
      assert Copies(whole.refills) == c1 + c2 by {
        CopiesAdd(dealt.refills, r.refills);
      }
      assert HandsBag(names, whole.table) == a + b by {
        DealHandsShape(tail, t, dealt.rest, handSize);
        assert n in r.table && r.table[n].hand == dealt.cards;
        HandsBagCons(names, r.table);
      }
      DealHandsStep(a, b, multiset(r.rest), multiset(dealt.rest), multiset(deck), c1, c2);
    }
  }

  /** The first player's hand and the others'. */
  lemma HandsBagCons(names: seq<string>, table: map<string, Player>)
    requires |names| > 0 && names[0] in table
    ensures HandsBag(names, table) == multiset(table[names[0]].hand) + HandsBag(names[1..], table)
  {
  }

  lemma DealHandsStep(a: multiset<Card>, b: multiset<Card>, x: multiset<Card>, mid: multiset<Card>,
                      deck: multiset<Card>, c1: multiset<Card>, c2: multiset<Card>)
    requires b + x == mid + c2
    requires a + mid == deck + c1
    ensures a + b + x == deck + (c1 + c2)
  {
    forall y ensures (a + b + x)[y] == (deck + (c1 + c2))[y] {
      assert (b + x)[y] == (mid + c2)[y];
      assert (a + mid)[y] == (deck + c1)[y];
    }
  }

  /** With enough cards in the deck, dealing the hands folds in nothing and
      takes exactly `handSize` cards per player. */
  lemma {:induction false} DealHandsFromStock(names: seq<string>, table: map<string, Player>, deck: seq<Card>, handSize: nat)
    requires forall i :: 0 <= i < |names| ==> names[i] in table
    requires |deck| >= |names| * handSize
    ensures var r := DealHands(names, table, deck, handSize);
      r.refills == 0 && |r.rest| == |deck| - |names| * handSize
    decreases |names|
  {
    if |names| > 0 {
      var n := names[0];
      var dealt := DealMany(deck, handSize, StandardSet());
      var t := table[n := table[n].(hand := dealt.cards)];
      assert |names| * handSize == handSize + (|names| - 1) * handSize;
      DealManyFromStock(deck, handSize, StandardSet());
      assert forall i :: 0 <= i < |names| - 1 ==> names[1..][i] == names[i + 1];
      DealHandsFromStock(names[1..], t, dealt.rest, handSize);
    }
  }

  /** The last step of setup: one card from what the hands left seeds the
      main line. */
  function Seed(roster: Roster, dealt: HandsDealt, rule: Rule, handSize: nat): (r: Round)
    ensures r.roster == roster.(table := dealt.table)
    ensures r.active && r.winner == None && r.rule == rule && r.handSize == handSize
    ensures |r.line| == 1
    ensures |r.deck| == if |dealt.rest| > 0 then |dealt.rest| - 1 else 51
  {
    var seed := Deal(dealt.rest, StandardSet());
    Round(roster.(table := dealt.table), AddToMain([], seed.card), seed.rest, true, None, rule, handSize)
  }

  /** `initializeRound(rule)`: a fresh deck of `DeckCount` sets, new hands
      for everyone, and one card dealt to seed the main line. Scores carry
      over from earlier rounds. */
  function Setup(roster: Roster, rule: Rule, handSize: nat, shuffle: Shuffle): (r: Round)
    requires Valid(roster)
    ensures Valid(r.roster) && r.roster.names == roster.names && r.roster.calls == roster.calls
    ensures r.active && r.winner == None && r.rule == rule && r.handSize == handSize
    ensures |r.line| == 1
  {
    var deck := NewDeck(DeckCount(|roster.names|, handSize), shuffle);
    var dealt := DealHands(roster.names, roster.table, deck, handSize);
    assert Valid(roster.(table := dealt.table)) by {
      DealtHandsValid(roster, deck, handSize);
    }
    Seed(roster, dealt, rule, handSize)
  }

  /** After setup everyone holds `handSize` new cards and keeps their score. */
  lemma SetupHands(roster: Roster, rule: Rule, handSize: nat, shuffle: Shuffle)
    requires Valid(roster)
    ensures NewHands(roster, Setup(roster, rule, handSize, shuffle).roster.table, handSize)
  {
    var deck := NewDeck(DeckCount(|roster.names|, handSize), shuffle);
    var dealt := DealHands(roster.names, roster.table, deck, handSize);
    assert NewHands(roster, dealt.table, handSize) by {
      DealtHandsValid(roster, deck, handSize);
    }
    assert Setup(roster, rule, handSize, shuffle).roster.table == dealt.table;
  }

  /** Everyone listed in `roster` has a record in `t` with `handSize` cards
      and the score they had. */
  predicate NewHands(roster: Roster, t: map<string, Player>, handSize: nat) {
    forall i :: 0 <= i < |roster.names| ==>
      && roster.names[i] in t && roster.names[i] in roster.table
      && |t[roster.names[i]].hand| == handSize
      && t[roster.names[i]].score == roster.table[roster.names[i]].score
  }

  /** After setup the deck holds what the hands and the seed card left of the
      `DeckCount` sets; nothing was folded in. */
  lemma SetupDeck(roster: Roster, rule: Rule, handSize: nat, shuffle: Shuffle)
    requires Valid(roster)
    ensures |Setup(roster, rule, handSize, shuffle).deck|
      == 52 * DeckCount(|roster.names|, handSize) - |roster.names| * handSize - 1
  {
    var n := DeckCount(|roster.names|, handSize);
    var deck := NewDeck(n, shuffle);
    var dealt := DealHands(roster.names, roster.table, deck, handSize);
    assert |dealt.rest| == 52 * n - |roster.names| * handSize > 0 by {
      DeckSuffices(|roster.names|, handSize);
      DealHandsFromStock(roster.names, roster.table, deck, handSize);
    }
    SeedDeck(roster, dealt, rule, handSize);
    assert Setup(roster, rule, handSize, shuffle).deck == Seed(roster, dealt, rule, handSize).deck;
  }

  /** Seeding the line from a non-empty deck takes one card off it. */
  lemma SeedDeck(roster: Roster, dealt: HandsDealt, rule: Rule, handSize: nat)
    requires |dealt.rest| > 0
    ensures |Seed(roster, dealt, rule, handSize).deck| == |dealt.rest| - 1
  {
    var seed := Deal(dealt.rest, StandardSet());
    assert |seed.rest| == |dealt.rest| - 1;
    assert Seed(roster, dealt, rule, handSize).deck == seed.rest;
  }

  /** The new hands are filed under the same names, with the same scores. */
  lemma DealtHandsValid(roster: Roster, deck: seq<Card>, handSize: nat)
    requires Valid(roster)
    ensures var t := DealHands(roster.names, roster.table, deck, handSize).table;
      && Valid(roster.(table := t))
      && forall i :: 0 <= i < |roster.names| ==>
        |t[roster.names[i]].hand| == handSize && t[roster.names[i]].score == roster.table[roster.names[i]].score
  {
    var t := DealHands(roster.names, roster.table, deck, handSize).table;
    DealHandsShape(roster.names, roster.table, deck, handSize);
    forall i | 0 <= i < |roster.names|
      ensures roster.names[i] in t && t[roster.names[i]].name == roster.names[i]
    {
      var n := roster.names[i];
      assert n in roster.table;
      assert n in t;
    }
  }

  /** The seed card comes off the deck onto the line. */
  lemma SeedConserves(roster: Roster, dealt: HandsDealt, rule: Rule, handSize: nat)
    requires Valid(roster.(table := dealt.table)) && |dealt.rest| > 0
    ensures var r := Seed(roster, dealt, rule, handSize);
      && AllCards(r) == HandsBag(roster.names, dealt.table) + multiset(dealt.rest)
      && |r.deck| == |dealt.rest| - 1
  {
    var seed := Deal(dealt.rest, StandardSet());
    DealConserves(dealt.rest, StandardSet());
    var r := Seed(roster, dealt, rule, handSize);
    assert FullLine(r.line) == [seed.card];
    assert Copies(0) == multiset{};
    var h, x := HandsBag(roster.names, dealt.table), multiset(seed.rest);
    forall y ensures (h + multiset{seed.card} + x)[y] == (h + multiset(dealt.rest))[y] {
      assert (x + multiset{seed.card})[y] == multiset(dealt.rest)[y];
    }
  }

  /** A deck big enough for every hand is only split between the hands and
      what is left; nothing is folded in. */
  lemma DealtFromStock(names: seq<string>, table: map<string, Player>, deck: seq<Card>, handSize: nat)
    requires forall i :: 0 <= i < |names| ==> names[i] in table
    requires DistinctNames(names) && |deck| >= |names| * handSize
    ensures var dealt := DealHands(names, table, deck, handSize);
      && HandsBag(names, dealt.table) + multiset(dealt.rest) == multiset(deck)
      && |dealt.rest| == |deck| - |names| * handSize
  {
    DealHandsFromStock(names, table, deck, handSize);
    DealHandsConserves(names, table, deck, handSize);
    assert Copies(0) == multiset{};
  }

  /** After setup the round holds exactly the `DeckCount` standard sets, and
      the deck what the hands and the seed card did not take. */
  lemma SetupConserves(roster: Roster, rule: Rule, handSize: nat, shuffle: Shuffle)
    requires Valid(roster) && DistinctNames(roster.names)
    ensures var r := Setup(roster, rule, handSize, shuffle);
      AllCards(r) == Copies(DeckCount(|roster.names|, handSize))
  {
    var n := DeckCount(|roster.names|, handSize);
    var deck := NewDeck(n, shuffle);
    var dealt := DealHands(roster.names, roster.table, deck, handSize);
    DeckSuffices(|roster.names|, handSize);
    DealtFromStock(roster.names, roster.table, deck, handSize);
    DealtHandsValid(roster, deck, handSize);
    SeedConserves(roster, dealt, rule, handSize);
    assert Setup(roster, rule, handSize, shuffle) == Seed(roster, dealt, rule, handSize);
  }

  // ---------------------------------------------------------------------
  // Winning

  /** `playerWins(player)`: the winner's hand is emptied first, then every
      player scores the starting hand size minus the cards still held, and
      the round ends. */
  function PlayerWins(r: Round, name: string): (r': Round)
    requires Valid(r.roster) && name in r.roster.table
    ensures Valid(r'.roster) && r'.roster.names == r.roster.names
    ensures !r'.active && r'.winner == Some(name)
    ensures r'.line == r.line && r'.deck == r.deck
    ensures r'.roster.table.Keys == r.roster.table.Keys
  {
    var t := r.roster.table[name := r.roster.table[name].(hand := [])];
    var scored := map n | n in t :: t[n].(score := t[n].score + r.handSize - |t[n].hand|);
    r.(roster := r.roster.(table := scored), active := false, winner := Some(name))
  }

  /** The winner gains exactly the hand size; everyone else gains the hand
      size minus the cards left in hand, and keeps those cards. */
  lemma WinnerScoring(r: Round, name: string, other: string)
    requires Valid(r.roster) && name in r.roster.table && other in r.roster.table && other != name
    ensures var t := PlayerWins(r, name).roster.table;
      && t[name].score == r.roster.table[name].score + r.handSize
      && |t[name].hand| == 0
      && t[other].score == r.roster.table[other].score + r.handSize - |r.roster.table[other].hand|
      && t[other].hand == r.roster.table[other].hand
  {
  }

  // ---------------------------------------------------------------------
  // A turn

  /** A typed text that makes the loop ask again. */
  predicate AsksAgain(o: Outcome) {
    o.status in {NotInHand, Unrecognised}
  }

  /** The input loop: the texts typed are tried in order, `play` giving
      what each would do, until one ends the turn; those asking again change
      nothing. `None` means the player has not yet typed a text that ends
      the turn. */
  function InputLoop(choices: seq<string>, play: string -> Outcome): (r: Option<(Outcome, nat)>)
    ensures r.None? <==> forall j :: 0 <= j < |choices| ==> AsksAgain(play(choices[j]))
    ensures r.Some? ==>
      && r.value.1 < |choices|
      && r.value.0 == play(choices[r.value.1])
      && !AsksAgain(r.value.0)
      && forall j :: 0 <= j < r.value.1 ==> AsksAgain(play(choices[j]))
    decreases |choices|
  {
    if |choices| == 0 then None
    else
      var o := play(choices[0]);
      if !AsksAgain(o) then Some((o, 0))
      else
        var rest := InputLoop(choices[1..], play);
        assert forall j :: 0 < j < |choices| ==> choices[j] == choices[1..][j - 1];
        match rest
        case None => None
        case Some((o', k)) => Some((o', k + 1))
  }

  /** What a turn did to the round. */
  datatype Progress = Waiting | Crash | Next(round: Round, refills: nat)

  /** `playTurn(nextPlayer())`: whoever is next types `choices`; a won turn
      ends the round, a played one hands the turn on. */
  function PlayTurn(r: Round, choices: seq<string>, refill: seq<Card>): (p: Progress)
    requires Valid(r.roster) && |r.roster.names| > 0 && IsShuffledSet(refill)
    ensures p.Next? ==> Valid(p.round.roster) && p.round.roster.names == r.roster.names
    ensures p.Next? ==> p.round.roster.calls == r.roster.calls + 1
  {
    var t := NextPlayer(r.roster).value;
    var who := t.player;
    var st := TurnState(who.hand, r.line, r.deck);
    match InputLoop(choices, c => PlayText(st, c, r.rule, refill))
    case None => Waiting
    case Some((o, _)) =>
      if o.status == Crashed then Crash
      else if o.status == Won then Next(PlayerWins(r.(roster := t.after), who.name), 0)
      else
        var table := t.after.table[who.name := who.(hand := o.after.hand)];
        Next(r.(roster := t.after.(table := table), line := o.after.line, deck := o.after.deck), o.refills)
  }

  /** A turn that went on was the next player's: the first answer that did
      not ask again was resolved against their hand, the line and the deck,
      and either won the round or left its hand, line and deck in the round. */
  lemma TurnTaken(r: Round, choices: seq<string>, refill: seq<Card>) returns (st: TurnState, o: Outcome, k: nat)
    requires Valid(r.roster) && |r.roster.names| > 0 && IsShuffledSet(refill)
    requires PlayTurn(r, choices, refill).Next?
    ensures var t := NextPlayer(r.roster).value; st == TurnState(t.player.hand, r.line, r.deck)
    ensures k < |choices| && o == Resolve(st, Classify(choices[k]), r.rule, refill)
    ensures o.status != Crashed
    ensures var p := PlayTurn(r, choices, refill);
      o.status == Won ==> !p.round.active && p.round.line == r.line
    ensures var p := PlayTurn(r, choices, refill); var t := NextPlayer(r.roster).value;
      o.status != Won ==>
        && p.round == r.(roster := t.after.(table := t.after.table[t.player.name := t.player.(hand := o.after.hand)]),
                         line := o.after.line, deck := o.after.deck)
        && p.refills == o.refills
  {
    var t := NextPlayer(r.roster).value;
    st := TurnState(t.player.hand, r.line, r.deck);
    var res := InputLoop(choices, c => PlayText(st, c, r.rule, refill));
    assert res.Some?;
    o, k := res.value.0, res.value.1;
  }

  /** A turn never shortens the line, so the seed card of setup keeps every
      later `addToSide` from meeting an empty line. */
  lemma LineNeverShrinks(r: Round, choices: seq<string>, refill: seq<Card>)
    requires Valid(r.roster) && |r.roster.names| > 0 && IsShuffledSet(refill)
    requires PlayTurn(r, choices, refill).Next?
    ensures |PlayTurn(r, choices, refill).round.line| >= |r.line|
  {
    var st, o, k := TurnTaken(r, choices, refill);
    MainGrowsByPassing(st, Classify(choices[k]), r.rule, refill);
    assert |MainLine(o.after.line)| >= |MainLine(st.line)|;
  }

  /** Under any catalogue rule, a player with cards in hand and a seeded line
      never crashes the turn. */
  lemma CatalogueNeverCrashes(st: TurnState, move: Move, e: Entry, refill: seq<Card>)
    requires IsShuffledSet(refill) && |st.hand| > 0 && |st.line| > 0
    ensures Resolve(st, move, RuleOf(e), refill).status != Crashed
  {
    forall c ensures Test(RuleOf(e), ContextOf(st), c) != Raise {
      assert Test(RuleOf(e), ContextOf(st), c) == Judge(e, c, MainLine(st.line));
    }
    NoCrash(st, move, RuleOf(e), refill);
  }

  /** Changing the hand of someone not in `names` leaves their bag alone. */
  lemma {:induction false} HandsBagUntouched(names: seq<string>, table: map<string, Player>, n: string, h: seq<Card>)
    requires forall i :: 0 <= i < |names| ==> names[i] in table
    requires n in table && n !in names
    ensures HandsBag(names, table[n := table[n].(hand := h)]) == HandsBag(names, table)
    decreases |names|
  {
    if |names| > 0 {
      assert forall i :: 0 <= i < |names| - 1 ==> names[1..][i] == names[i + 1];
      HandsBagUntouched(names[1..], table, n, h);
    }
  }

  /** Replacing one player's hand changes the cards in all hands by exactly
      the difference of the two hands. */
  lemma {:induction false} HandsBagUpdate(names: seq<string>, table: map<string, Player>, n: string, h: seq<Card>)
    requires forall i :: 0 <= i < |names| ==> names[i] in table
    requires DistinctNames(names) && n in table
    ensures var t := table[n := table[n].(hand := h)];
      HandsBag(names, t) + (if n in names then multiset(table[n].hand) else multiset{})
        == HandsBag(names, table) + (if n in names then multiset(h) else multiset{})
    decreases |names|
  {
    if |names| > 0 {
      var t := table[n := table[n].(hand := h)];
      var tail := names[1..];
      assert forall i :: 0 <= i < |tail| ==> tail[i] == names[i + 1];
      var first, first' := multiset(table[names[0]].hand), multiset(t[names[0]].hand);
      assert HandsBag(names, t) == first' + HandsBag(tail, t);
      assert HandsBag(names, table) == first + HandsBag(tail, table);
      if n == names[0] {
        assert n !in tail;
        HandsBagUntouched(tail, table, n, h);
        SwapEnds(first', HandsBag(tail, t), first);
      } else {
        assert DistinctNames(tail);
        assert n in names <==> n in tail;
        HandsBagUpdate(tail, table, n, h);
        assert first' == first;
        SharedFront(first, HandsBag(tail, t), if n in tail then multiset(table[n].hand) else multiset{},
          HandsBag(tail, table), if n in tail then multiset(h) else multiset{});
      }
    }
  }

  lemma SwapEnds(v: multiset<Card>, b: multiset<Card>, u: multiset<Card>)
    ensures v + b + u == u + b + v
  {
    forall y ensures (v + b + u)[y] == (u + b + v)[y] {
    }
  }

  lemma SharedFront(f: multiset<Card>, p: multiset<Card>, q: multiset<Card>, r: multiset<Card>, s: multiset<Card>)
    requires p + q == r + s
    ensures f + p + q == f + r + s
  {
    forall y ensures (f + p + q)[y] == (f + r + s)[y] {
      assert (p + q)[y] == (r + s)[y];
    }
  }

  /** A turn that does not end the round keeps every card of the round,
      plus the sets folded in. */
  lemma PlayTurnConserves(r: Round, choices: seq<string>, refill: seq<Card>)
    requires Valid(r.roster) && |r.roster.names| > 0 && IsShuffledSet(refill)
    requires DistinctNames(r.roster.names)
    requires PlayTurn(r, choices, refill).Next?
    requires PlayTurn(r, choices, refill).round.active
    ensures var p := PlayTurn(r, choices, refill);
      AllCards(p.round) == AllCards(r) + Copies(p.refills)
  {
    var t := NextPlayer(r.roster).value;
    var who := t.player;
    var st, o, k := TurnTaken(r, choices, refill);
    var p := PlayTurn(r, choices, refill);
    var hb, hb' := HandsBag(r.roster.names, r.roster.table), HandsBag(p.round.roster.names, p.round.roster.table);
    var h, h' := multiset(st.hand), multiset(o.after.hand);
    var f, f' := multiset(FullLine(st.line)), multiset(FullLine(o.after.line));
    var d, d' := multiset(st.deck), multiset(o.after.deck);
    var c := Copies(o.refills);
    assert hb' + h == hb + h' by {
      HandsBagUpdate(r.roster.names, r.roster.table, who.name, o.after.hand);
      assert who == r.roster.table[who.name];
    }
    assert h' + f' + d' == h + f + d + c by {
      TurnConserves(st, Classify(choices[k]), r.rule, refill);
    }
    SwapHand(hb, hb', h, h', f, f', d, d', c);
    assert AllCards(p.round) == hb' + f' + d';
  }

  lemma SwapHand(hb: multiset<Card>, hb': multiset<Card>, h: multiset<Card>, h': multiset<Card>,
                 f: multiset<Card>, f': multiset<Card>, d: multiset<Card>, d': multiset<Card>, c: multiset<Card>)
    requires hb' + h == hb + h' && h' + f' + d' == h + f + d + c
    ensures hb' + f' + d' == hb + f + d + c
  {
    forall y ensures (hb' + f' + d')[y] == (hb + f + d + c)[y] {
      assert (hb' + h)[y] == (hb + h')[y];
      assert (h' + f' + d')[y] == (h + f + d + c)[y];
    }
  }

  /** A turn that ends the round was won with the player's last card, and
      that card leaves the game: `playerWins` empties the winner's hand
      without putting the card on the line. Every other card stays, and
      nothing is folded in. */
  lemma WinningTurnDropsCard(r: Round, choices: seq<string>, refill: seq<Card>)
    requires Valid(r.roster) && |r.roster.names| > 0 && IsShuffledSet(refill)
    requires DistinctNames(r.roster.names) && r.active
    requires PlayTurn(r, choices, refill).Next?
    requires !PlayTurn(r, choices, refill).round.active
    ensures var p := PlayTurn(r, choices, refill); var w := NextPlayer(r.roster).value.player;
      && |w.hand| == 1 && p.refills == 0
      && AllCards(p.round) + multiset{w.hand[0]} == AllCards(r)
  {
    var t := NextPlayer(r.roster).value;
    var who := t.player;
    TurnWon(r, choices, refill);
    var r0 := r.(roster := t.after);
    PlayerWinsDropsHand(r0, who.name);
    assert AllCards(r0) == AllCards(r);
    assert multiset(who.hand) == multiset{who.hand[0]} by {
      assert who.hand == [who.hand[0]];
    }
  }

  /** A turn that ended an active round was a win with the player's one
      card. */
  lemma TurnWon(r: Round, choices: seq<string>, refill: seq<Card>)
    requires Valid(r.roster) && |r.roster.names| > 0 && IsShuffledSet(refill) && r.active
    requires PlayTurn(r, choices, refill).Next?
    requires !PlayTurn(r, choices, refill).round.active
    ensures var p := PlayTurn(r, choices, refill); var t := NextPlayer(r.roster).value;
      && |t.player.hand| == 1
      && p == Next(PlayerWins(r.(roster := t.after), t.player.name), 0)
  {
    var st, o, k := TurnTaken(r, choices, refill);
    assert o.status == Won;
    WinCondition(st, Classify(choices[k]), r.rule, refill);
  }

  /** `playerWins` takes the winner's cards out of the game and leaves every
      other card where it was. */
  lemma PlayerWinsDropsHand(r: Round, name: string)
    requires Valid(r.roster) && DistinctNames(r.roster.names) && name in r.roster.names
    ensures AllCards(PlayerWins(r, name)) + multiset(r.roster.table[name].hand) == AllCards(r)
  {
    var names, table := r.roster.names, r.roster.table;
    var emptied := table[name := table[name].(hand := [])];
    var won := PlayerWins(r, name);
    var hb, hb', h := HandsBag(names, table), HandsBag(names, won.roster.table), multiset(table[name].hand);
    assert hb' + h == hb by {
      assert forall n :: n in won.roster.table ==> won.roster.table[n].hand == emptied[n].hand;
      HandsBagSameHands(names, won.roster.table, emptied);
      HandsBagUpdate(names, table, name, []);
    }
    AddBack(hb', multiset(FullLine(r.line)), multiset(r.deck), h, hb);
  }

  lemma AddBack(hb': multiset<Card>, f: multiset<Card>, d: multiset<Card>, h: multiset<Card>, hb: multiset<Card>)
    requires hb' + h == hb
    ensures hb' + f + d + h == hb + f + d
  {
  }

  /** Only the hands count: tables that agree on every hand hold the same
      cards. */
  lemma {:induction false} HandsBagSameHands(names: seq<string>, a: map<string, Player>, b: map<string, Player>)
    requires a.Keys == b.Keys
    requires forall n :: n in a ==> a[n].hand == b[n].hand
    ensures HandsBag(names, a) == HandsBag(names, b)
    decreases |names|
  {
    if |names| > 0 {
      HandsBagSameHands(names[1..], a, b);
    }
  }

  /** Under `threeInARow`, a main line that follows the triples pattern
      still does after any turn: only passing cards reach it. */
  lemma TriplesSurviveTurn(r: Round, choices: seq<string>, refill: seq<Card>)
    requires Valid(r.roster) && |r.roster.names| > 0 && IsShuffledSet(refill)
    requires r.rule == RuleOf(ColorTriples)
    requires |MainLine(r.line)| > 0 && InTriples(MainLine(r.line))
    requires PlayTurn(r, choices, refill).Next?
    ensures InTriples(MainLine(PlayTurn(r, choices, refill).round.line))
  {
    var st, o, k := TurnTaken(r, choices, refill);
    MainGrowsByPassing(st, Classify(choices[k]), r.rule, refill);
    if MainLine(o.after.line) != MainLine(st.line) {
      var c :| MainLine(o.after.line) == MainLine(st.line) + [c] && Passes(r.rule, ContextOf(st), c);
      assert Test(RuleOf(ColorTriples), ContextOf(st), c) == Judge(ColorTriples, c, MainLine(st.line));
      ColorTriplesKeepsTriples(c, MainLine(st.line));
    }
  }
}

=== FILE: hands.dfy ===
/** A player's hand (`Hand` in cardobjects.py) and the two rule queries on a
    collection of cards (`Hand.odds`, `Card.odds`). */
module Hands {
  import opened Wrappers
  import opened Cards
  import opened Lines
  import opened Rules

  type Hand = seq<Card>

  /** `hasCard`: scan for a card equal to `c`. */
  function HasCard(h: Hand, c: Card): (r: bool)
    ensures r <==> c in h
  {
    if |h| == 0 then false
    else if Equal(h[0], c) then true
    else HasCard(h[1..], c)
  }

  /** The outcome of a `pop(index)` after a scan: the index found, the card
      returned, and the cards left in order; the `None` of no match; or the
      exception a rule raised on the card at `at`, which ends the scan. */
  datatype Removal = Removed(at: nat, card: Card, rest: Hand) | NoMatch | Raised(at: nat)

  /** The position of the first card satisfying `p`, or `|h|` if none does:
      the loop index of the scan when it stops. */
  function FirstIndex(h: Hand, p: Card -> bool): (i: nat)
    ensures i <= |h| && (i < |h| ==> p(h[i]))
    ensures forall j :: 0 <= j < i ==> !p(h[j])
  {
    if |h| == 0 || p(h[0]) then 0
    else
      var i := FirstIndex(h[1..], p);
      assert forall j :: 1 <= j < i + 1 ==> h[j] == h[1..][j - 1];
      i + 1
  }

  /** Scan in hand order for the first card satisfying `p` and pop it. */
  function RemoveFirst(h: Hand, p: Card -> bool): (r: Removal)
    ensures !r.Raised?
    ensures r.NoMatch? <==> forall j :: 0 <= j < |h| ==> !p(h[j])
    ensures r.Removed? ==>
      && r.at < |h| && h[r.at] == r.card && p(r.card)
      && (forall j :: 0 <= j < r.at ==> !p(h[j]))
      && r.rest == h[..r.at] + h[r.at + 1..]
  {
    var i := FirstIndex(h, p);
    if i == |h| then NoMatch else Removed(i, h[i], h[..i] + h[i + 1..])
  }

  /** `removeCard`: pop the first card equal to `c`, keeping the others in
      order; with no such card, report no match and keep the hand. */
  function RemoveCard(h: Hand, c: Card): (r: Removal)
    ensures !r.Raised?
    ensures r.NoMatch? <==> c !in h
    ensures r.Removed? ==>
      && r.card == c && r.at < |h| && h[r.at] == c && c !in h[..r.at]
      && r.rest == h[..r.at] + h[r.at + 1..]
      && multiset(r.rest) + multiset{c} == multiset(h)
  {
    var r := RemoveFirst(h, x => Equal(x, c));
    if r.Removed? then
      assert h == h[..r.at] + [c] + h[r.at + 1..];
      r
    else r
  }

  /** Some card of `cards` makes the rule raise. */
  predicate AnyRaises(rule: Rule, ctx: Context, cards: seq<Card>) {
    exists j :: 0 <= j < |cards| && Test(rule, ctx, cards[j]) == Raise
  }

  /** `removeAPassingCard`: test the cards in hand order and pop the first
      that passes. The first card that does not fail decides: a pass is
      popped, and a raise escapes before any later card is tested. */
  function RemoveAPassingCard(h: Hand, rule: Rule, ctx: Context): (r: Removal)
    ensures r.NoMatch? <==> forall j :: 0 <= j < |h| ==> Test(rule, ctx, h[j]) == Fail
    ensures !r.NoMatch? ==> r.at < |h| && forall j :: 0 <= j < r.at ==> Test(rule, ctx, h[j]) == Fail
    ensures r.Raised? ==> Test(rule, ctx, h[r.at]) == Raise
    ensures r.Removed? ==>
      && h[r.at] == r.card && Passes(rule, ctx, r.card)
      && r.rest == h[..r.at] + h[r.at + 1..]
    ensures !AnyRaises(rule, ctx, h) ==>
      && !r.Raised?
      && (r.NoMatch? <==> forall j :: 0 <= j < |h| ==> !Passes(rule, ctx, h[j]))
  {
    var i := FirstIndex(h, x => Test(rule, ctx, x) != Fail);
    if i == |h| then NoMatch
    else if Test(rule, ctx, h[i]) == Raise then Raised(i)
    else Removed(i, h[i], h[..i] + h[i + 1..])
  }

  /** The number of cards of `cards` that pass the rule (the `passes` counter
      of the `odds` loops). */
  function PassCount(cards: seq<Card>, rule: Rule, ctx: Context): (n: nat)
    ensures n <= |cards|
    ensures n == 0 <==> forall j :: 0 <= j < |cards| ==> !Passes(rule, ctx, cards[j])
    ensures n == |cards| <==> forall j :: 0 <= j < |cards| ==> Passes(rule, ctx, cards[j])
  {
    if |cards| == 0 then 0
    else (if Passes(rule, ctx, cards[0]) then 1 else 0) + PassCount(cards[1..], rule, ctx)
  }

  /** The count is additive over concatenation. */
  lemma {:induction false} PassCountAppend(a: seq<Card>, b: seq<Card>, rule: Rule, ctx: Context)
    ensures PassCount(a + b, rule, ctx) == PassCount(a, rule, ctx) + PassCount(b, rule, ctx)
  {
    if |a| > 0 {
      assert (a + b)[0] == a[0];
      assert (a + b)[1..] == a[1..] + b;
      PassCountAppend(a[1..], b, rule, ctx);
    } else {
      assert a + b == b;
    }
  }

  /** `passes / len(cards)` as an exact fraction. */
  datatype Ratio = Ratio(passes: nat, total: nat)

  /** `Hand.odds` and `Card.odds`: the fraction of cards that pass. `None`
      stands for the exception: a rule that raises on any card, since the
      loop tests every card, or the division by zero on no cards. */
  function Odds(cards: seq<Card>, rule: Rule, ctx: Context): (r: Option<Ratio>)
    ensures r.None? <==> |cards| == 0 || AnyRaises(rule, ctx, cards)
    ensures r.Some? ==> r.value.total == |cards| && r.value.passes <= r.value.total
    ensures r.Some? ==> (r.value.passes == 0 <==> forall j :: 0 <= j < |cards| ==> !Passes(rule, ctx, cards[j]))
    ensures r.Some? ==> (r.value.passes == r.value.total <==> forall j :: 0 <= j < |cards| ==> Passes(rule, ctx, cards[j]))
  {
    if |cards| == 0 || AnyRaises(rule, ctx, cards) then None
    else Some(Ratio(PassCount(cards, rule, ctx), |cards|))
  }

  /** A rule that raises on the first card escapes both scans: `odds` and
      `removeAPassingCard` test that card before any other. */
  lemma RaiseEscapes(h: Hand, rule: Rule, ctx: Context)
    requires |h| > 0 && Test(rule, ctx, h[0]) == Raise
    ensures Odds(h, rule, ctx).None?
    ensures RemoveAPassingCard(h, rule, ctx) == Raised(0)
  {
  }

  /** Removing the first passing card removes exactly one passing card. */
  lemma RemovePassingDropsCount(h: Hand, rule: Rule, ctx: Context)
    requires RemoveAPassingCard(h, rule, ctx).Removed?
    ensures var r := RemoveAPassingCard(h, rule, ctx);
      PassCount(r.rest, rule, ctx) + 1 == PassCount(h, rule, ctx)
  {
    var r := RemoveAPassingCard(h, rule, ctx);
    assert h == h[..r.at] + ([h[r.at]] + h[r.at + 1..]);
    PassCountAppend(h[..r.at], [h[r.at]] + h[r.at + 1..], rule, ctx);
    PassCountAppend([h[r.at]], h[r.at + 1..], rule, ctx);
    PassCountAppend(h[..r.at], h[r.at + 1..], rule, ctx);
  }

  /** "Greater than the last main card", one of the rules of the unit tests. */
  function AboveLast(): Rule {
    Base("Greater than last card on MAINLINE",
      (c, m, d, h) => if |m| == 0 then Raise else FromBool(Gt(c, m[|m| - 1])))
  }

  /** "At least every card in hand", another rule of the unit tests. */
  function AtLeastHand(): Rule {
    Base("Greater than or equal to highest card in hand", (c, m, d, h) => FromBool(AtLeastAll(c, h)))
  }

  /** The `reduce` of that rule: `c >= card` for every card of `h`. */
  function AtLeastAll(c: Card, h: seq<Card>): bool {
    |h| == 0 || (Ge(c, h[0]) && AtLeastAll(c, h[1..]))
  }

  /** The hand of the composition test: 3-spades, 7-clubs. */
  const ExampleHand: Hand := [Card(Three, Spade), Card(Seven, Club)]

  /** The composition test: on a line whose last main card is 5-spades (the
      test's line is Q-clubs, 5-spades, with Q-clubs and K-hearts on the side
      list), the merge of the two rules passes for half of the hand. */
  lemma OddsExample(line: Line)
    requires |line| > 0 && line[|line| - 1].main == Card(Five, Spade)
    ensures Odds(ExampleHand, Merge(AboveLast(), AtLeastHand()), Context(line, ExampleHand)) == Some(Ratio(1, 2))
  {
    var ctx, rule := Context(line, ExampleHand), Merge(AboveLast(), AtLeastHand());
    ExampleVerdicts(line);
    assert ExampleHand[1..] == [ExampleHand[1]];
    assert PassCount(ExampleHand[1..], rule, ctx) == 1;
    forall j | 0 <= j < |ExampleHand| ensures Test(rule, ctx, ExampleHand[j]) != Raise {
      assert j == 0 || j == 1;
    }
    OddsWithoutRaise(ExampleHand, rule, ctx);
  }

  /** With no raising card, `odds` is the pass count over the card count. */
  lemma OddsWithoutRaise(cards: seq<Card>, rule: Rule, ctx: Context)
    requires |cards| > 0 && forall j :: 0 <= j < |cards| ==> Test(rule, ctx, cards[j]) != Raise
    ensures Odds(cards, rule, ctx) == Some(Ratio(PassCount(cards, rule, ctx), |cards|))
  {
  }

  /** 3-spades is not above the 5-spades; 7-clubs is, and is at least every
      card in hand. */
  lemma ExampleVerdicts(line: Line)
    requires |line| > 0 && line[|line| - 1].main == Card(Five, Spade)
    ensures var ctx := Context(line, ExampleHand);
      && Test(Merge(AboveLast(), AtLeastHand()), ctx, ExampleHand[0]) == Fail
      && Test(Merge(AboveLast(), AtLeastHand()), ctx, ExampleHand[1]) == Pass
  {
    AboveLastVerdicts(line);
    AtLeastHandVerdict(line);
  }

  lemma AboveLastVerdicts(line: Line)
    requires |line| > 0 && line[|line| - 1].main == Card(Five, Spade)
    ensures var ctx := Context(line, ExampleHand);
      Test(AboveLast(), ctx, ExampleHand[0]) == Fail && Test(AboveLast(), ctx, ExampleHand[1]) == Pass
  {
    var ctx, m := Context(line, ExampleHand), MainLine(line);
    assert |m| > 0 && m[|m| - 1] == Card(Five, Spade);
    assert !Gt(ExampleHand[0], Card(Five, Spade)) && Gt(ExampleHand[1], Card(Five, Spade));
    AboveLastReads(ctx, ExampleHand[0]);
    AboveLastReads(ctx, ExampleHand[1]);
  }

  lemma AtLeastHandVerdict(line: Line)
    ensures Test(AtLeastHand(), Context(line, ExampleHand), ExampleHand[1]) == Pass
  {
    var b, h := ExampleHand[1], ExampleHand;
    AtLeastHandReads(Context(line, h), b);
    assert h[1..] == [b] && h[1..][1..] == [];
    assert AtLeastAll(b, h);
  }

  lemma AboveLastReads(ctx: Context, c: Card)
    ensures var m := MainLine(ctx.line);
      Test(AboveLast(), ctx, c) == if |m| == 0 then Raise else FromBool(Gt(c, m[|m| - 1]))
  {
  }

  lemma AtLeastHandReads(ctx: Context, c: Card)
    ensures Test(AtLeastHand(), ctx, c) == FromBool(AtLeastAll(c, ctx.hand))
  {
  }
}

=== FILE: lines.dfy ===
/** The line of play (`Line` in eleusisobjects.py): an append-only list of
    plays, each a main-line card with the side-line cards rejected after it. */
module Lines {
  import opened Wrappers
  import opened Cards

  datatype Play = Play(main: Card, side: seq<Card>)

  type Line = seq<Play>

  /** `getMainLine`: the main cards in play order. */
  function MainLine(line: Line): (m: seq<Card>)
    ensures |m| == |line|
    ensures forall i :: 0 <= i < |line| ==> m[i] == line[i].main
  {
    if |line| == 0 then [] else MainLine(line[..|line| - 1]) + [line[|line| - 1].main]
  }

  /** `getFullLine`: the left fold that appends each main card followed by
      its side cards, so it holds every main card and every side card. */
  function FullLine(line: Line): (r: seq<Card>)
    ensures |r| == |line| + SideCount(line)
  {
    if |line| == 0 then []
    else
      var last := line[|line| - 1];
      FullLine(line[..|line| - 1]) + [last.main] + last.side
  }

  /** Total number of side-line cards. */
  function SideCount(line: Line): nat {
    if |line| == 0 then 0 else SideCount(line[..|line| - 1]) + |line[|line| - 1].side|
  }

  /** `addToMain`: a new play with an empty side list. */
  function AddToMain(line: Line, c: Card): (r: Line)
    ensures |r| == |line| + 1 && r[..|line|] == line
    ensures MainLine(r) == MainLine(line) + [c]
    ensures FullLine(r) == FullLine(line) + [c]
  {
    var r := line + [Play(c, [])];
    assert r[..|line|] == line;
    r
  }

  /** `addToSide`: the card joins the side list of the last play; on an empty
      line `self.line[-1]` raises IndexError, modelled as `None`. */
  function AddToSide(line: Line, c: Card): (r: Option<Line>)
    ensures r.Some? <==> |line| > 0
    ensures r.Some? ==> |r.value| == |line|
    ensures r.Some? ==> r.value[..|line| - 1] == line[..|line| - 1]
    ensures r.Some? ==> r.value[|line| - 1].main == line[|line| - 1].main
    ensures r.Some? ==> MainLine(r.value) == MainLine(line)
    ensures r.Some? ==> FullLine(r.value) == FullLine(line) + [c]
  {
    if |line| == 0 then None
    else
      var last := line[|line| - 1];
      var r := line[..|line| - 1] + [Play(last.main, last.side + [c])];
      assert r[..|line| - 1] == line[..|line| - 1];
      Some(r)
  }

  /** `addToSide` applied to each of `cards` in turn. */
  function AddAllToSide(line: Line, cards: seq<Card>): (r: Line)
    requires |line| > 0
    ensures |r| == |line| && r[..|line| - 1] == line[..|line| - 1]
    ensures r[|line| - 1] == Play(line[|line| - 1].main, line[|line| - 1].side + cards)
    ensures MainLine(r) == MainLine(line)
    ensures FullLine(r) == FullLine(line) + cards
    decreases |cards|
  {
    if |cards| == 0 then
      assert line[|line| - 1].side + cards == line[|line| - 1].side;
      line
    else
      var r := AddAllToSide(AddToSide(line, cards[0]).value, cards[1..]);
      assert [cards[0]] + cards[1..] == cards;
      r
  }

  /** The full view distributes over concatenation of lines. */
  lemma {:induction false} FullLineAppend(a: Line, b: Line)
    ensures FullLine(a + b) == FullLine(a) + FullLine(b)
    decreases |b|
  {
    if |b| > 0 {
      var ab := a + b;
      assert ab[..|ab| - 1] == a + b[..|b| - 1];
      assert ab[|ab| - 1] == b[|b| - 1];
      FullLineAppend(a, b[..|b| - 1]);
    } else {
      assert a + b == a;
    }
  }

  /** Where play `k`'s main card sits in the full view. */
  function Offset(line: Line, k: nat): nat
    requires k <= |line|
  {
    |FullLine(line[..k])|
  }

  /** The main view is a subsequence of the full view: play `k`'s main card
      sits at `Offset(line, k)`, and offsets strictly increase. */
  lemma MainEmbedsInFull(line: Line)
    ensures forall k :: 0 <= k < |line| ==>
      Offset(line, k) < |FullLine(line)| && FullLine(line)[Offset(line, k)] == MainLine(line)[k]
    ensures forall j, k :: 0 <= j < k < |line| ==> Offset(line, j) < Offset(line, k)
  {
    forall k | 0 <= k < |line|
      ensures Offset(line, k) < |FullLine(line)| && FullLine(line)[Offset(line, k)] == MainLine(line)[k]
    {
      MainAtOffset(line, k);
    }
    forall j, k | 0 <= j < k < |line|
      ensures Offset(line, j) < Offset(line, k)
    {
      OffsetGrows(line, j, k);
    }
  }

  lemma MainAtOffset(line: Line, k: nat)
    requires k < |line|
    ensures Offset(line, k) < |FullLine(line)| && FullLine(line)[Offset(line, k)] == line[k].main
  {
    var pre, post, p := line[..k], line[k + 1..], line[k];
    assert line == pre + ([p] + post);
    FullLineAround(pre, p, post);
  }

  /** The full view of a line split around play `p`. */
  lemma FullLineAround(pre: Line, p: Play, post: Line)
    ensures FullLine(pre + ([p] + post)) == FullLine(pre) + ([p.main] + p.side + FullLine(post))
  {
    FullLineAppend(pre, [p] + post);
    FullLineAppend([p], post);
    assert FullLine([p]) == [p.main] + p.side by { assert [p][..0] == []; }
  }

  lemma {:induction false} OffsetGrows(line: Line, j: nat, k: nat)
    requires j < k <= |line|
    ensures Offset(line, j) < Offset(line, k)
    decreases k - j
  {
    var pre := line[..k];
    assert pre[..k - 1] == line[..k - 1];
    assert |FullLine(pre)| == |FullLine(line[..k - 1])| + 1 + |line[k - 1].side|;
    if j < k - 1 {
      OffsetGrows(line, j, k - 1);
    }
  }

  /** The sequence of operations exercised by the line unit test: two main
      cards, then two side cards on the second. */
  lemma LineExample(a: Card, b: Card, c: Card, d: Card)
    ensures var l := AddToSide(AddToSide(AddToMain(AddToMain([], a), b), c).value, d).value;
      MainLine(l) == [a, b] && FullLine(l) == [a, b, c, d]
  {
  }
}

=== FILE: players.dfy ===
/** The players of a game (`Player` and `Players` in eleusisobjects.py): a
    table of player records keyed by name and the endless cycle over the
    names in the order they joined. */
module Players {
  import opened Wrappers
  import opened Cards

  datatype Player = Player(name: string, hand: seq<Card>, score: int)

  /** `Player(name)`: an empty hand and no points yet. */
  function NewPlayer(name: string): (p: Player)
    ensures p.name == name && |p.hand| == 0 && p.score == 0
  {
    Player(name, [], 0)
  }

  /** The table, the joining order, and how many times `nextPlayer` has been
      called (the position of the `cycle` iterator). */
  datatype Roster = Roster(names: seq<string>, table: map<string, Player>, calls: nat)

  /** Every name in the order has a record filed under it. */
  predicate Valid(r: Roster) {
    forall i :: 0 <= i < |r.names| ==> r.names[i] in r.table && r.table[r.names[i]].name == r.names[i]
  }

  /** The table `{name: Player(name)}` built by the constructor's loop; a
      repeated name keeps a single record. */
  function Table(names: seq<string>): (t: map<string, Player>)
    ensures t.Keys == set i | 0 <= i < |names| :: names[i]
    ensures forall n :: n in t ==> t[n] == NewPlayer(n)
  {
    if |names| == 0 then map[]
    else
      var t := Table(names[..|names| - 1]);
      var n := names[|names| - 1];
      assert forall i :: 0 <= i < |names| - 1 ==> names[..|names| - 1][i] == names[i];
      t[n := NewPlayer(n)]
  }

  /** `Players(names)`. */
  function NewRoster(names: seq<string>): (r: Roster)
    ensures Valid(r) && r.names == names && r.calls == 0
    ensures forall i :: 0 <= i < |names| ==> r.table[names[i]] == NewPlayer(names[i])
  {
    Roster(names, Table(names), 0)
  }

  /** Whose turn it is and the roster after the call. */
  datatype Turn = Turn(player: Player, after: Roster)

  /** `nextPlayer`: the record of the next name in the cycle. Cycling an
      empty list stops at once, which `None` stands for. */
  function NextPlayer(r: Roster): (t: Option<Turn>)
    requires Valid(r)
    ensures t.None? <==> |r.names| == 0
    ensures t.Some? ==> Valid(t.value.after) && t.value.player.name in r.names
  {
    if |r.names| == 0 then None
    else
      var name := r.names[r.calls % |r.names|];
      Some(Turn(r.table[name], r.(calls := r.calls + 1)))
  }

  /** The names returned by `k` successive calls of `nextPlayer`. */
  function Schedule(r: Roster, k: nat): (s: seq<string>)
    requires Valid(r) && |r.names| > 0
    ensures |s| == k
    decreases k
  {
    if k == 0 then []
    else
      var t := NextPlayer(r).value;
      [t.player.name] + Schedule(t.after, k - 1)
  }

  /** Round robin: the `k`-th call (counting from 0) on a new roster names
      `names[k mod n]`. */
  lemma {:induction false} RoundRobin(r: Roster, k: nat, j: nat)
    requires Valid(r) && |r.names| > 0 && j < k
    ensures Schedule(r, k)[j] == r.names[(r.calls + j) % |r.names|]
    decreases k
  {
    var t := NextPlayer(r).value;
    if j > 0 {
      RoundRobin(t.after, k - 1, j - 1);
      assert (t.after.calls + (j - 1)) == r.calls + j;
    }
  }

  lemma NewRosterRoundRobin(names: seq<string>, k: nat, j: nat)
    requires |names| > 0 && j < k
    ensures Schedule(NewRoster(names), k)[j] == names[j % |names|]
  {
    RoundRobin(NewRoster(names), k, j);
  }

  /** Fairness: in any `n` consecutive calls every player is called. */
  lemma EveryoneInEachLap(r: Roster, k: nat, start: nat, i: nat)
    requires Valid(r) && |r.names| > 0 && i < |r.names| && start + |r.names| <= k
    ensures r.names[i] in Schedule(r, k)[start..start + |r.names|]
  {
    var n := |r.names|;
    var off := (i - (r.calls + start) % n + n) % n;
    assert (r.calls + start + off) % n == i by {
      ModShift(r.calls + start, off, n, i);
    }
    RoundRobin(r, k, start + off);
    assert Schedule(r, k)[start..start + n][off] == Schedule(r, k)[start + off];
  }

  lemma ModShift(a: nat, off: nat, n: nat, i: nat)
    requires n > 0 && i < n && off == (i - a % n + n) % n
    ensures (a + off) % n == i
  {
    var q, m := a / n, a % n;
    assert a == q * n + m && 0 <= m < n;
    if m <= i {
      assert off == i - m by {
        ModAddMultiple(1, n, i - m);
      }
      assert a + off == q * n + i;
      ModAddMultiple(q, n, i);
    } else {
      assert off == i - m + n by {
        ModAddMultiple(0, n, i - m + n);
      }
      assert a + off == (q + 1) * n + i;
      ModAddMultiple(q + 1, n, i);
    }
  }

  lemma ModAddMultiple(q: nat, n: nat, i: nat)
    requires n > 0 && i < n
    ensures (q * n + i) % n == i
  {
    var m := q * n + i;
    var d := m / n - q;
    assert d * n == i - m % n;
    if d > 0 {
      MulAtLeast(d, n);
    } else if d < 0 {
      MulAtLeast(-d, n);
    }
  }

  lemma MulAtLeast(d: int, n: int)
    requires d >= 1 && n >= 0
    ensures d * n >= n
  {
    assert d * n == (d - 1) * n + n;
  }
}

=== FILE: rules.dfy ===
/** The rule engine (`Rule` in eleusisobjects.py) with the class-level
    `Rule.line` / `Rule.hand` replaced by an explicit evaluation context. */
module Rules {
  import opened Cards
  import opened Lines

  /** What a callback does: accept, reject, or raise (for instance the
      IndexError of `m[-1]` on an empty main line). */
  datatype Verdict = Pass | Fail | Raise

  function FromBool(b: bool): (v: Verdict)
    ensures v != Raise && (v == Pass <==> b)
  {
    if b then Pass else Fail
  }

  /** A rule callback `f(c, m, d, h)`: the candidate card, the main view, the
      full view and the current hand. */
  type Callback = (Card, seq<Card>, seq<Card>, seq<Card>) -> Verdict

  /** A rule built by the constructor, by `merge` or by `overlay`. */
  datatype Rule =
    | Base(title: string, f: Callback)
    | Merged(left: Rule, right: Rule)
    | Overlaid(left: Rule, right: Rule)

  /** `rule.name`. */
  function Name(r: Rule): string {
    match r
    case Base(title, _) => title
    case Merged(a, b) => "(" + Name(a) + " and " + Name(b) + ")"
    case Overlaid(a, b) => "(" + Name(a) + " or " + Name(b) + ")"
  }

  /** `rule.f(c, m, d, h)`; a composite evaluates its left operand first and
      consults the right one only when Python's `and` / `or` would. */
  function Eval(r: Rule, c: Card, m: seq<Card>, d: seq<Card>, h: seq<Card>): (v: Verdict)
    ensures r.Merged? ==> (v == Pass <==> Eval(r.left, c, m, d, h) == Pass && Eval(r.right, c, m, d, h) == Pass)
    ensures r.Overlaid? ==> (v == Fail <==> Eval(r.left, c, m, d, h) == Fail && Eval(r.right, c, m, d, h) == Fail)
    ensures !r.Base? ==> (v == Raise <==>
      Eval(r.left, c, m, d, h) == Raise ||
      (Eval(r.left, c, m, d, h) == (if r.Merged? then Pass else Fail) && Eval(r.right, c, m, d, h) == Raise))
  {
    match r
    case Base(_, f) => f(c, m, d, h)
    case Merged(a, b) =>
      var va := Eval(a, c, m, d, h);
      if va == Pass then Eval(b, c, m, d, h) else va
    case Overlaid(a, b) =>
      var va := Eval(a, c, m, d, h);
      if va == Fail then Eval(b, c, m, d, h) else va
  }

  /** The line and hand a rule is evaluated against. */
  datatype Context = Context(line: Line, hand: seq<Card>)

  /** `rule.test(card)`: the callback on the card, the two views of the
      context's line and its hand. */
  function Test(r: Rule, ctx: Context, c: Card): (v: Verdict)
    ensures r.Base? ==> v == r.f(c, MainLine(ctx.line), FullLine(ctx.line), ctx.hand)
  {
    Eval(r, c, MainLine(ctx.line), FullLine(ctx.line), ctx.hand)
  }

  /** `card.passesRule(rule)`. */
  predicate Passes(r: Rule, ctx: Context, c: Card) {
    Test(r, ctx, c) == Pass
  }

  /** `test` reads the context only through its two views and the hand. */
  lemma TestReadsViews(r: Rule, ctx: Context, ctx': Context, c: Card)
    requires MainLine(ctx.line) == MainLine(ctx'.line)
    requires FullLine(ctx.line) == FullLine(ctx'.line)
    requires ctx.hand == ctx'.hand
    ensures Test(r, ctx, c) == Test(r, ctx', c)
  {
  }

  /** `a.merge(b)`: the stricter rule. */
  function Merge(a: Rule, b: Rule): (r: Rule)
    ensures Name(r) == "(" + Name(a) + " and " + Name(b) + ")"
    ensures forall ctx, c :: Passes(r, ctx, c) <==> Passes(a, ctx, c) && Passes(b, ctx, c)
    ensures forall ctx, c :: Test(a, ctx, c) == Fail ==> Test(r, ctx, c) == Fail
    ensures forall ctx, c :: Test(r, ctx, c) == Raise <==>
      Test(a, ctx, c) == Raise || (Test(a, ctx, c) == Pass && Test(b, ctx, c) == Raise)
  {
    Merged(a, b)
  }

  /** `a.overlay(b)`: the more lenient rule. */
  function Overlay(a: Rule, b: Rule): (r: Rule)
    ensures Name(r) == "(" + Name(a) + " or " + Name(b) + ")"
    ensures forall ctx, c :: Test(r, ctx, c) != Raise ==>
      (Passes(r, ctx, c) <==> Passes(a, ctx, c) || Passes(b, ctx, c))
    ensures forall ctx, c :: Test(a, ctx, c) == Pass ==> Test(r, ctx, c) == Pass
    ensures forall ctx, c :: Test(r, ctx, c) == Raise <==>
      Test(a, ctx, c) == Raise || (Test(a, ctx, c) == Fail && Test(b, ctx, c) == Raise)
  {
    Overlaid(a, b)
  }

  /** When neither operand raises, the composites are the boolean AND and OR
      of the operands. */
  lemma ComposeWithoutErrors(a: Rule, b: Rule, ctx: Context, c: Card)
    requires Test(a, ctx, c) != Raise && Test(b, ctx, c) != Raise
    ensures Test(Merge(a, b), ctx, c) == FromBool(Passes(a, ctx, c) && Passes(b, ctx, c))
    ensures Test(Overlay(a, b), ctx, c) == FromBool(Passes(a, ctx, c) || Passes(b, ctx, c))
  {
  }
}

=== FILE: text.dfy ===
/** The two pieces of Python string handling that `Card.parse` relies on:
    `str.split()` with no argument and `str.lower()`. */
module Text {

  /** The characters `str.split()` treats as separators (Unicode White_Space
      plus the ASCII information separators 0x1C-0x1F). */
  predicate IsSpace(ch: char) {
    || ch == ' '
    || ('\U{0009}' <= ch <= '\U{000D}')
    || ('\U{001C}' <= ch <= '\U{001F}')
    || ch == '\U{0085}' || ch == '\U{00A0}' || ch == '\U{1680}'
    || ('\U{2000}' <= ch <= '\U{200A}')
    || ch == '\U{2028}' || ch == '\U{2029}' || ch == '\U{202F}'
    || ch == '\U{205F}' || ch == '\U{3000}'
  }

  /** A token of a split: non-empty and free of separators. */
  predicate IsWord(w: string) {
    |w| > 0 && forall i :: 0 <= i < |w| ==> !IsSpace(w[i])
  }

  /** A non-empty run of ASCII letters is a single token. */
  lemma LettersAreWord(w: string)
    requires |w| > 0 && forall i :: 0 <= i < |w| ==> 'A' <= w[i] <= 'Z' || 'a' <= w[i] <= 'z'
    ensures IsWord(w)
  {
  }

  /** The longest prefix of `s` that holds no separator. */
  function WordPrefix(s: string): (w: string)
    ensures |w| <= |s| && w == s[..|w|]
    ensures forall i :: 0 <= i < |w| ==> !IsSpace(w[i])
    ensures |w| < |s| ==> IsSpace(s[|w|])
  {
    if |s| == 0 || IsSpace(s[0]) then [] else [s[0]] + WordPrefix(s[1..])
  }

  /** `s.split()`: the maximal runs of non-separators, in order. */
  function Split(s: string): (r: seq<string>)
    ensures forall k :: 0 <= k < |r| ==> IsWord(r[k])
    decreases |s|
  {
    if |s| == 0 then []
    else if IsSpace(s[0]) then Split(s[1..])
    else
      var w := WordPrefix(s);
      [w] + Split(s[|w|..])
  }

  /** `" ".join(ws)`, the inverse of `Split` on lists of words. */
  function Unwords(ws: seq<string>): string {
    if |ws| == 0 then ""
    else if |ws| == 1 then ws[0]
    else ws[0] + " " + Unwords(ws[1..])
  }

  /** A word followed by a separator or by nothing is the first token. */
  lemma {:induction false} SplitWord(w: string, rest: string)
    requires IsWord(w)
    requires |rest| == 0 || IsSpace(rest[0])
    ensures Split(w + rest) == [w] + Split(rest)
  {
    PrefixOfWord(w, rest);
    assert (w + rest)[|w|..] == rest;
  }

  lemma {:induction false} PrefixOfWord(w: string, rest: string)
    requires forall i :: 0 <= i < |w| ==> !IsSpace(w[i])
    requires |rest| == 0 || IsSpace(rest[0])
    ensures WordPrefix(w + rest) == w
  {
    if |w| > 0 {
      assert (w + rest)[0] == w[0];
      assert (w + rest)[1..] == w[1..] + rest;
      PrefixOfWord(w[1..], rest);
    }
  }

  /** Leading separators are skipped. */
  lemma {:induction false} SplitSkipsSpaces(pad: string, s: string)
    requires forall i :: 0 <= i < |pad| ==> IsSpace(pad[i])
    ensures Split(pad + s) == Split(s)
    decreases |pad|
  {
    if |pad| > 0 {
      assert (pad + s)[0] == pad[0];
      assert (pad + s)[1..] == pad[1..] + s;
      SplitSkipsSpaces(pad[1..], s);
    } else {
      assert pad + s == s;
    }
  }

  /** Splitting words joined by single spaces gives the words back. */
  lemma {:induction false} SplitUnwords(ws: seq<string>)
    requires forall k :: 0 <= k < |ws| ==> IsWord(ws[k])
    ensures Split(Unwords(ws)) == ws
  {
    if |ws| == 1 {
      SplitWord(ws[0], "");
      assert ws[0] + "" == ws[0];
    } else if |ws| > 1 {
      var tail := " " + Unwords(ws[1..]);
      assert Unwords(ws) == ws[0] + tail;
      SplitWord(ws[0], tail);
      assert tail[1..] == Unwords(ws[1..]);
      SplitUnwords(ws[1..]);
    }
  }

  /** Python's `str.lower()` on the ASCII letters. */
  function LowerChar(ch: char): (r: char)
    ensures 'A' <= ch <= 'Z' ==> 'a' <= r <= 'z' && r as int == ch as int + 32
    ensures !('A' <= ch <= 'Z') ==> r == ch
  {
    if 'A' <= ch <= 'Z' then (ch as int + 32) as char else ch
  }

  function Lower(s: string): (r: string)
    ensures |r| == |s|
    ensures forall i :: 0 <= i < |s| ==> r[i] == LowerChar(s[i])
  {
    seq(|s|, i requires 0 <= i < |s| => LowerChar(s[i]))
  }

  lemma LowerIdempotent(s: string)
    ensures Lower(Lower(s)) == Lower(s)
  {
  }

  function LowerAll(ws: seq<string>): (r: seq<string>)
    ensures |r| == |ws|
    ensures forall k :: 0 <= k < |ws| ==> r[k] == Lower(ws[k])
  {
    seq(|ws|, k requires 0 <= k < |ws| => Lower(ws[k]))
  }

  /** Lower-casing neither creates nor removes separators. */
  lemma LowerKeepsSpaces(ch: char)
    ensures IsSpace(LowerChar(ch)) == IsSpace(ch)
  {
  }

  /** Hence lower-casing commutes with splitting. */
  lemma {:induction false} SplitLower(s: string)
    ensures Split(Lower(s)) == LowerAll(Split(s))
    decreases |s|
  {
    if |s| > 0 {
      var t := Lower(s);
      assert t[1..] == Lower(s[1..]);
      LowerKeepsSpaces(s[0]);
      if IsSpace(s[0]) {
        SplitLower(s[1..]);
      } else {
        var w := WordPrefix(s);
        PrefixLower(s);
        assert t[|w|..] == Lower(s[|w|..]);
        SplitLower(s[|w|..]);
        SplitLowerStep(s, w);
      }
    }
  }

  lemma SplitLowerStep(s: string, w: string)
    requires |s| > 0 && !IsSpace(s[0]) && w == WordPrefix(s)
    requires WordPrefix(Lower(s)) == Lower(w)
    requires Split(Lower(s[|w|..])) == LowerAll(Split(s[|w|..]))
    requires Lower(s)[|w|..] == Lower(s[|w|..])
    ensures Split(Lower(s)) == LowerAll(Split(s))
  {
    LowerKeepsSpaces(s[0]);
    var rest := Split(s[|w|..]);
    SplitFirstWord(Lower(s), Lower(w));
    SplitFirstWord(s, w);
    LowerAllCons(w, rest);
  }

  lemma SplitFirstWord(s: string, w: string)
    requires |s| > 0 && !IsSpace(s[0]) && w == WordPrefix(s)
    ensures Split(s) == [w] + Split(s[|w|..])
  {
  }

  lemma LowerAllCons(w: string, ws: seq<string>)
    ensures LowerAll([w] + ws) == [Lower(w)] + LowerAll(ws)
  {
  }

  lemma {:induction false} PrefixLower(s: string)
    ensures WordPrefix(Lower(s)) == Lower(WordPrefix(s))
    decreases |s|
  {
    var t := Lower(s);
    if |s| > 0 {
      assert t[0] == LowerChar(s[0]);
      LowerKeepsSpaces(s[0]);
      assert t[1..] == Lower(s[1..]);
      if !IsSpace(s[0]) {
        PrefixLower(s[1..]);
        assert WordPrefix(t) == [t[0]] + WordPrefix(t[1..]);
        assert Lower([s[0]] + WordPrefix(s[1..])) == [LowerChar(s[0])] + Lower(WordPrefix(s[1..]));
      }
    }
  }
}

=== FILE: turns.dfy ===
/** One turn of `Game.playTurn` in eleusis.py (the input loop at lines
    127-166) as a pure transition on the player's hand, the line and the
    deck. */
module Turns {
  import opened Wrappers
  import opened Text
  import opened Cards
  import opened Lines
  import opened Rules
  import opened Hands
  import opened Decks

  /** The literal a player types to claim that nothing in hand can be played. */
  const NoPlay: string := "NO PLAY"

  /** What the typed text asks for: the exact claim string, a card, or
      something `parse` does not recognise. */
  datatype Move = DeclareNoPlay | Offer(card: Card) | Garbage

  /** The claim string is compared first; everything else goes to `parse`. */
  function Classify(choice: string): (m: Move)
    ensures m == DeclareNoPlay <==> choice == NoPlay
    ensures m.Offer? ==> Parse(choice) == Some(m.card)
    ensures m == Garbage <==> choice != NoPlay && Parse(choice) == None
  {
    if choice == NoPlay then DeclareNoPlay
    else match Parse(choice)
      case Some(c) => Offer(c)
      case None => Garbage
  }

  /** The claim string itself does not parse as a card: it splits into two
      words, not three. */
  lemma NoPlayIsNoCard()
    ensures Parse(NoPlay) == None
  {
    SplitNoPlay();
    WrongWordCount(NoPlay);
  }

  lemma SplitNoPlay()
    ensures |Split(NoPlay)| == 2
  {
    var ws := ["NO", "PLAY"];
    assert IsWord(ws[0]) && IsWord(ws[1]);
    assert Unwords(ws) == NoPlay;
    SplitUnwords(ws);
  }

  lemma WrongWordCount(s: string)
    requires |Split(s)| != 3
    ensures Parse(s) == None
  {
  }

  /** What the turn touches. */
  datatype TurnState = TurnState(hand: seq<Card>, line: Line, deck: seq<Card>)

  /** How the turn ended:
      Won          the player's last card was disposed of correctly;
      Played       the turn is over and the next player is up;
      NotInHand    a well-formed card the player does not hold: ask again;
      Unrecognised text that is no card: ask again;
      Crashed      an exception escaped (a callback raised, `odds` divided
                   by zero, `addToSide` met an empty line). */
  datatype Status = Won | Played | NotInHand | Unrecognised | Crashed

  /** The status, the state after the turn, and how many new standard sets
      the deck had to fold in. */
  datatype Outcome = Outcome(status: Status, after: TurnState, refills: nat)

  function ContextOf(st: TurnState): Context {
    Context(st.line, st.hand)
  }

  function Unchanged(status: Status, st: TurnState): Outcome {
    Outcome(status, st, 0)
  }

  /** Every card the turn touches is kept: hand, full line and deck hold
      what they held before, plus one standard set per refill. */
  predicate Conserves(st: TurnState, o: Outcome) {
    multiset(o.after.hand) + multiset(FullLine(o.after.line)) + multiset(o.after.deck)
      == multiset(st.hand) + multiset(FullLine(st.line)) + multiset(st.deck) + Copies(o.refills)
  }

  /** The dealer replaces a card: the kept cards `rest` plus one card dealt
      from the deck, with `line` as the new line. */
  function Replace(rest: seq<Card>, line: Line, deck: seq<Card>, refill: seq<Card>): (o: Outcome)
    requires IsShuffledSet(refill)
    ensures o.status == Played && o.after.line == line
    ensures |o.after.hand| == |rest| + 1 && o.after.hand[..|rest|] == rest
  {
    var d := Deal(deck, refill);
    var h := rest + [d.card];
    assert h[..|rest|] == rest;
    Outcome(Played, TurnState(h, line, d.rest), Refills(d.refilled))
  }

  /** A card leaves the hand for the line, one card is dealt in its place,
      and no card is lost or invented. */
  lemma ReplaceConserves(st: TurnState, card: Card, rest: seq<Card>, line: Line, refill: seq<Card>)
    requires IsShuffledSet(refill)
    requires multiset(rest) + multiset{card} == multiset(st.hand)
    requires FullLine(line) == FullLine(st.line) + [card]
    ensures Conserves(st, Replace(rest, line, st.deck, refill))
  {
    var o := Replace(rest, line, st.deck, refill);
    var d := Deal(st.deck, refill);
    assert o == Outcome(Played, TurnState(rest + [d.card], line, d.rest), Refills(d.refilled));
    var p, q, u, v := multiset(rest), multiset{card}, multiset(d.rest), multiset{d.card};
    var f, c := multiset(FullLine(st.line)), Copies(o.refills);
    assert u + v == multiset(st.deck) + c by {
      DealConserves(st.deck, refill);
    }
    assert multiset(o.after.hand) == p + v;
    assert multiset(FullLine(o.after.line)) == f + q;
    ExchangeOne(p, q, u, v, f, multiset(st.hand), multiset(st.deck), c);
  }

  /** The multiset step of a replacement: `q` goes from the hand to the
      line, `v` from the deck to the hand. */
  lemma ExchangeOne(p: multiset<Card>, q: multiset<Card>, u: multiset<Card>, v: multiset<Card>,
                    f: multiset<Card>, hand: multiset<Card>, deck: multiset<Card>, c: multiset<Card>)
    requires p + q == hand && u + v == deck + c
    ensures (p + v) + (f + q) + u == hand + f + deck + c
  {
    forall y ensures ((p + v) + (f + q) + u)[y] == (hand + f + deck + c)[y] {
      assert (p + q)[y] == hand[y];
      assert (u + v)[y] == (deck + c)[y];
    }
  }

  /** A correct claim with more than one card: the whole hand goes onto the
      side line of the last play and `n - 1` new cards are dealt. */
  function ClearHand(st: TurnState, refill: seq<Card>): (o: Outcome)
    requires IsShuffledSet(refill) && |st.line| > 0 && |st.hand| > 0
    ensures o.status == Played
    ensures MainLine(o.after.line) == MainLine(st.line)
    ensures FullLine(o.after.line) == FullLine(st.line) + st.hand
    ensures |o.after.hand| == |st.hand| - 1
  {
    var dealt := DealMany(st.deck, |st.hand| - 1, refill);
    Outcome(Played, TurnState(dealt.cards, AddAllToSide(st.line, st.hand), dealt.rest), dealt.refills)
  }

  /** With enough cards in stock the new hand is the top `n - 1` cards, top
      first, and nothing is folded in. */
  lemma ClearHandFromStock(st: TurnState, refill: seq<Card>)
    requires IsShuffledSet(refill) && |st.line| > 0 && |st.hand| > 0
    requires |st.deck| >= |st.hand| - 1
    ensures var o := ClearHand(st, refill); var k := |st.hand| - 1;
      o.refills == 0 &&
      o.after.hand == Reverse(st.deck[|st.deck| - k..]) &&
      o.after.deck == st.deck[..|st.deck| - k]
  {
    var k := |st.hand| - 1;
    var dealt := DealMany(st.deck, k, refill);
    assert ClearHand(st, refill).after.hand == dealt.cards;
    assert ClearHand(st, refill).after.deck == dealt.rest;
    assert ClearHand(st, refill).refills == dealt.refills;
    DealManyFromStock(st.deck, k, refill);
  }

  lemma ClearHandConserves(st: TurnState, refill: seq<Card>)
    requires IsShuffledSet(refill) && |st.line| > 0 && |st.hand| > 0
    ensures Conserves(st, ClearHand(st, refill))
  {
    var o := ClearHand(st, refill);
    var r := DealMany(st.deck, |st.hand| - 1, refill);
    assert o.after.hand == r.cards && o.after.deck == r.rest && o.refills == r.refills;
    var full := FullLine(st.line);
    assert multiset(FullLine(o.after.line)) == multiset(full) + multiset(st.hand) by {
      assert FullLine(o.after.line) == full + st.hand;
    }
    var a, f, h, x, c := multiset(r.cards), multiset(full), multiset(st.hand), multiset(r.rest), Copies(r.refills);
    assert a + x == multiset(st.deck) + c by {
      DealManyConserves(st.deck, |st.hand| - 1, refill);
    }
    Regroup(a, f, h, x, multiset(st.deck), c);
  }

  lemma Regroup(a: multiset<Card>, f: multiset<Card>, h: multiset<Card>, x: multiset<Card>,
                d: multiset<Card>, c: multiset<Card>)
    requires a + x == d + c
    ensures a + (f + h) + x == h + f + d + c
  {
    forall y ensures (a + (f + h) + x)[y] == (h + f + d + c)[y] {
      assert (a + x)[y] == (d + c)[y];
    }
  }

  /** The `NO PLAY` branch. `odds` runs the rule on every card of the hand
      (and divides by the hand's size) before anything moves. */
  function ClaimNoPlay(st: TurnState, rule: Rule, refill: seq<Card>): (o: Outcome)
    requires IsShuffledSet(refill)
  {
    var ctx := ContextOf(st);
    if |st.hand| == 0 || AnyRaises(rule, ctx, st.hand) then Unchanged(Crashed, st)
    else
      match RemoveAPassingCard(st.hand, rule, ctx)
      case NoMatch =>
        if |st.hand| == 1 then Unchanged(Won, st)
        else if |st.line| == 0 then Unchanged(Crashed, st)
        else ClearHand(st, refill)
      case Removed(_, card, rest) => Replace(rest, AddToMain(st.line, card), st.deck, refill)
      case Raised(_) => Unchanged(Crashed, st)
  }

  /** The branches for a parsed card. `hasCard` and the rule are consulted
      before `removeCard`; taking the first copy out first and then asking
      the rule in the turn's context comes to the same. */
  function OfferCard(st: TurnState, c: Card, rule: Rule, refill: seq<Card>): (o: Outcome)
    requires IsShuffledSet(refill)
  {
    match RemoveCard(st.hand, c)
    case Removed(_, card, rest) =>
      (match Test(rule, ContextOf(st), c)
       case Raise => Unchanged(Crashed, st)
       case Pass =>
         if |st.hand| == 1 then Unchanged(Won, st)
         else Outcome(Played, TurnState(rest, AddToMain(st.line, card), st.deck), 0)
       case Fail =>
         match AddToSide(st.line, card)
         case None => Unchanged(Crashed, st)
         case Some(line') => Replace(rest, line', st.deck, refill))
    case _ => Unchanged(NotInHand, st)
  }

  /** One pass through the input loop with the text already classified. The
      rule sees the line and the hand as they were when the turn began;
      `refill` is the order a shuffle would give a new standard set should the
      deck run out. */
  function Resolve(st: TurnState, move: Move, rule: Rule, refill: seq<Card>): (o: Outcome)
    requires IsShuffledSet(refill)
  {
    match move
    case Garbage => Unchanged(Unrecognised, st)
    case DeclareNoPlay => ClaimNoPlay(st, rule, refill)
    case Offer(c) => OfferCard(st, c, rule, refill)
  }

  /** `playTurn` with the typed text. */
  function PlayText(st: TurnState, choice: string, rule: Rule, refill: seq<Card>): (o: Outcome)
    requires IsShuffledSet(refill)
  {
    Resolve(st, Classify(choice), rule, refill)
  }

  // ---------------------------------------------------------------------
  // The branches, each stated against the line's views and the hand

  /** Only a played turn changes anything; asking again is reserved for text
      that is no card and for cards not held. */
  lemma OnlyPlayedChanges(st: TurnState, move: Move, rule: Rule, refill: seq<Card>)
    requires IsShuffledSet(refill)
    ensures var o := Resolve(st, move, rule, refill);
      (o.status != Played ==> o == Unchanged(o.status, st)) &&
      (o.status == Unrecognised <==> move == Garbage) &&
      (o.status == NotInHand <==> move.Offer? && move.card !in st.hand)
  {
    match move
    case Garbage =>
    case DeclareNoPlay => ClaimStatus(st, rule, refill);
    case Offer(c) => OfferStatus(st, c, rule, refill);
  }

  lemma ClaimStatus(st: TurnState, rule: Rule, refill: seq<Card>)
    requires IsShuffledSet(refill)
    ensures var o := ClaimNoPlay(st, rule, refill);
      (o.status != Played ==> o == Unchanged(o.status, st)) &&
      o.status != Unrecognised && o.status != NotInHand
  {
  }

  lemma OfferStatus(st: TurnState, c: Card, rule: Rule, refill: seq<Card>)
    requires IsShuffledSet(refill)
    ensures var o := OfferCard(st, c, rule, refill);
      (o.status != Played ==> o == Unchanged(o.status, st)) &&
      o.status != Unrecognised && (o.status == NotInHand <==> c !in st.hand)
  {
  }

  /** Text goes to the input branches as typed: only unparseable text other
      than the claim string is asked for again as unrecognised. */
  lemma PlayTextUnrecognised(st: TurnState, choice: string, rule: Rule, refill: seq<Card>)
    requires IsShuffledSet(refill)
    ensures PlayText(st, choice, rule, refill).status == Unrecognised <==>
      choice != NoPlay && Parse(choice) == None
  {
    OnlyPlayedChanges(st, Classify(choice), rule, refill);
  }

  /** A player wins exactly when holding one card and either claiming no
      play while that card fails, or offering that card while it passes. */
  lemma WinCondition(st: TurnState, move: Move, rule: Rule, refill: seq<Card>)
    requires IsShuffledSet(refill)
    ensures Resolve(st, move, rule, refill).status == Won <==>
      |st.hand| == 1 &&
      ((move == DeclareNoPlay && Test(rule, ContextOf(st), st.hand[0]) == Fail) ||
       (move == Offer(st.hand[0]) && Passes(rule, ContextOf(st), st.hand[0])))
  {
    match move
    case Garbage =>
    case DeclareNoPlay => ClaimWins(st, rule, refill);
    case Offer(c) => OfferWins(st, c, rule, refill);
  }

  lemma ClaimWins(st: TurnState, rule: Rule, refill: seq<Card>)
    requires IsShuffledSet(refill)
    ensures ClaimNoPlay(st, rule, refill).status == Won <==>
      |st.hand| == 1 && Test(rule, ContextOf(st), st.hand[0]) == Fail
  {
    var ctx := ContextOf(st);
    if |st.hand| == 1 {
      if Test(rule, ctx, st.hand[0]) == Fail {
        assert !AnyRaises(rule, ctx, st.hand);
      } else if Test(rule, ctx, st.hand[0]) == Raise {
        assert AnyRaises(rule, ctx, st.hand);
      }
    }
  }

  lemma OfferWins(st: TurnState, c: Card, rule: Rule, refill: seq<Card>)
    requires IsShuffledSet(refill)
    ensures OfferCard(st, c, rule, refill).status == Won <==>
      |st.hand| == 1 && c == st.hand[0] && Passes(rule, ContextOf(st), c)
  {
  }

  /** A correct claim with two or more cards: the whole hand goes, in order,
      onto the side line of the last play, the main line stays, and the hand
      is replaced by one card fewer, dealt from the deck. */
  lemma CorrectNoPlay(st: TurnState, rule: Rule, refill: seq<Card>)
    requires IsShuffledSet(refill)
    requires |st.hand| >= 2 && |st.line| > 0
    requires forall j :: 0 <= j < |st.hand| ==> Test(rule, ContextOf(st), st.hand[j]) == Fail
    ensures Resolve(st, DeclareNoPlay, rule, refill) == ClearHand(st, refill)
  {
    var ctx := ContextOf(st);
    assert !AnyRaises(rule, ctx, st.hand);
    assert RemoveAPassingCard(st.hand, rule, ctx).NoMatch?;
  }

  /** A wrong claim: the first passing card in hand order goes to the main
      line and is replaced from the deck, so the hand keeps its size. */
  lemma IncorrectNoPlay(st: TurnState, rule: Rule, refill: seq<Card>, i: nat)
    requires IsShuffledSet(refill)
    requires !AnyRaises(rule, ContextOf(st), st.hand)
    requires i < |st.hand| && Passes(rule, ContextOf(st), st.hand[i])
    requires forall j :: 0 <= j < i ==> !Passes(rule, ContextOf(st), st.hand[j])
    ensures var o := Resolve(st, DeclareNoPlay, rule, refill);
      && o.status == Played
      && MainLine(o.after.line) == MainLine(st.line) + [st.hand[i]]
      && FullLine(o.after.line) == FullLine(st.line) + [st.hand[i]]
      && |o.after.hand| == |st.hand|
      && o.after.hand[..|st.hand| - 1] == st.hand[..i] + st.hand[i + 1..]
  {
    var ctx := ContextOf(st);
    var r := RemoveAPassingCard(st.hand, rule, ctx);
    assert r.Removed?;
    assert r.at == i by {
      if r.at < i {
      } else if r.at > i {
      }
    }
    assert Resolve(st, DeclareNoPlay, rule, refill) == Replace(r.rest, AddToMain(st.line, r.card), st.deck, refill);
  }

  /** Offering a held card that passes, with more cards in hand: the first
      copy leaves the hand for the main line and nothing is dealt. */
  lemma PlayPassing(st: TurnState, rule: Rule, refill: seq<Card>, c: Card)
    requires IsShuffledSet(refill)
    requires c in st.hand && |st.hand| > 1 && Passes(rule, ContextOf(st), c)
    ensures var o := Resolve(st, Offer(c), rule, refill);
      && o.status == Played
      && MainLine(o.after.line) == MainLine(st.line) + [c]
      && FullLine(o.after.line) == FullLine(st.line) + [c]
      && multiset(o.after.hand) + multiset{c} == multiset(st.hand)
      && |o.after.hand| == |st.hand| - 1
      && o.after.deck == st.deck && o.refills == 0
  {
  }

  /** Offering a held card that fails: it goes to the side line and is
      replaced from the deck; the main line and the hand size stay. */
  lemma PlayFailing(st: TurnState, rule: Rule, refill: seq<Card>, c: Card)
    requires IsShuffledSet(refill)
    requires c in st.hand && |st.line| > 0 && Test(rule, ContextOf(st), c) == Fail
    ensures var o := Resolve(st, Offer(c), rule, refill);
      && o.status == Played
      && MainLine(o.after.line) == MainLine(st.line)
      && FullLine(o.after.line) == FullLine(st.line) + [c]
      && |o.after.hand| == |st.hand|
      && multiset(o.after.hand[..|st.hand| - 1]) + multiset{c} == multiset(st.hand)
  {
    var r := RemoveCard(st.hand, c);
    var line' := AddToSide(st.line, c).value;
    assert Resolve(st, Offer(c), rule, refill) == Replace(r.rest, line', st.deck, refill);
  }

  // ---------------------------------------------------------------------
  // Invariants of a turn

  /** A turn leaves a nonempty hand behind. A win is the exception in
      spirit only: it reports the state from before the turn, with the one
      card still in hand, and `playerWins` empties the hand afterwards. */
  lemma HandStaysNonEmpty(st: TurnState, move: Move, rule: Rule, refill: seq<Card>)
    requires IsShuffledSet(refill) && |st.hand| > 0
    ensures |Resolve(st, move, rule, refill).after.hand| > 0
    ensures Resolve(st, move, rule, refill).status == Won ==>
      Resolve(st, move, rule, refill).after == st && |st.hand| == 1
  {
    match move
    case Garbage =>
    case DeclareNoPlay => ClaimKeepsHand(st, rule, refill);
    case Offer(c) => OfferKeepsHand(st, c, rule, refill);
  }

  lemma ClaimKeepsHand(st: TurnState, rule: Rule, refill: seq<Card>)
    requires IsShuffledSet(refill) && |st.hand| > 0
    ensures |ClaimNoPlay(st, rule, refill).after.hand| > 0
  {
    var ctx := ContextOf(st);
    var o := ClaimNoPlay(st, rule, refill);
    if !AnyRaises(rule, ctx, st.hand) {
      var r := RemoveAPassingCard(st.hand, rule, ctx);
      if r.NoMatch? {
        if |st.hand| > 1 && |st.line| > 0 {
          assert o == ClearHand(st, refill);
        }
      } else {
        assert r.Removed?;
        assert o == Replace(r.rest, AddToMain(st.line, r.card), st.deck, refill);
      }
    }
  }

  lemma OfferKeepsHand(st: TurnState, c: Card, rule: Rule, refill: seq<Card>)
    requires IsShuffledSet(refill) && |st.hand| > 0
    ensures |OfferCard(st, c, rule, refill).after.hand| > 0
  {
    match RemoveCard(st.hand, c)
    case NoMatch =>
    case Removed(_, card, rest) =>
      assert |rest| == |st.hand| - 1;
  }

  /** With cards in hand, a seeded line and a rule that raises on no card,
      no turn crashes. */
  lemma NoCrash(st: TurnState, move: Move, rule: Rule, refill: seq<Card>)
    requires IsShuffledSet(refill) && |st.hand| > 0 && |st.line| > 0
    requires forall c :: Test(rule, ContextOf(st), c) != Raise
    ensures Resolve(st, move, rule, refill).status != Crashed
  {
    if move == DeclareNoPlay {
      assert !AnyRaises(rule, ContextOf(st), st.hand);
    }
  }

  /** The main line only ever grows by one card that passed the rule in the
      context the turn began with. */
  ghost predicate GrowsByPassing(st: TurnState, o: Outcome, rule: Rule) {
    MainLine(o.after.line) == MainLine(st.line) ||
    (o.status == Played &&
     exists c :: MainLine(o.after.line) == MainLine(st.line) + [c] && Passes(rule, ContextOf(st), c))
  }

  lemma MainGrowsByPassing(st: TurnState, move: Move, rule: Rule, refill: seq<Card>)
    requires IsShuffledSet(refill)
    ensures GrowsByPassing(st, Resolve(st, move, rule, refill), rule)
  {
    match move
    case Garbage =>
    case DeclareNoPlay => ClaimGrows(st, rule, refill);
    case Offer(c) => OfferGrows(st, c, rule, refill);
  }

  lemma ClaimGrows(st: TurnState, rule: Rule, refill: seq<Card>)
    requires IsShuffledSet(refill)
    ensures GrowsByPassing(st, ClaimNoPlay(st, rule, refill), rule)
  {
    var ctx := ContextOf(st);
    if |st.hand| > 0 && !AnyRaises(rule, ctx, st.hand) {
      var r := RemoveAPassingCard(st.hand, rule, ctx);
      if r.Removed? {
        var o := ClaimNoPlay(st, rule, refill);
        assert o == Replace(r.rest, AddToMain(st.line, r.card), st.deck, refill);
        assert MainLine(o.after.line) == MainLine(st.line) + [r.card];
      }
    }
  }

  lemma OfferGrows(st: TurnState, c: Card, rule: Rule, refill: seq<Card>)
    requires IsShuffledSet(refill)
    ensures GrowsByPassing(st, OfferCard(st, c, rule, refill), rule)
  {
    var o := OfferCard(st, c, rule, refill);
    match RemoveCard(st.hand, c)
    case NoMatch =>
    case Removed(_, card, rest) =>
      match Test(rule, ContextOf(st), c)
      case Raise =>
      case Pass =>
        if |st.hand| > 1 {
          assert o.after.line == AddToMain(st.line, c);
        }
      case Fail =>
        match AddToSide(st.line, card)
        case None =>
        case Some(line') =>
          assert o.after.line == line';
  }

  /** Taking the card at `at` out of `h` leaves the other cards. */
  lemma TakenOut(h: seq<Card>, at: nat, rest: seq<Card>)
    requires at < |h| && rest == h[..at] + h[at + 1..]
    ensures multiset(rest) + multiset{h[at]} == multiset(h)
  {
    assert h == h[..at] + [h[at]] + h[at + 1..];
  }

  lemma TurnConserves(st: TurnState, move: Move, rule: Rule, refill: seq<Card>)
    requires IsShuffledSet(refill)
    ensures Conserves(st, Resolve(st, move, rule, refill))
  {
    match move
    case Garbage =>
    case DeclareNoPlay => ClaimConserves(st, rule, refill);
    case Offer(c) => OfferConserves(st, c, rule, refill);
  }

  lemma UnchangedConserves(status: Status, st: TurnState)
    ensures Conserves(st, Unchanged(status, st))
  {
    assert Copies(0) == multiset{};
  }

  lemma ClaimConserves(st: TurnState, rule: Rule, refill: seq<Card>)
    requires IsShuffledSet(refill)
    ensures Conserves(st, ClaimNoPlay(st, rule, refill))
  {
    var ctx := ContextOf(st);
    var o := ClaimNoPlay(st, rule, refill);
    if o.status != Played {
      ClaimStatus(st, rule, refill);
      UnchangedConserves(o.status, st);
    } else {
      assert |st.hand| > 0 && !AnyRaises(rule, ctx, st.hand);
      var r := RemoveAPassingCard(st.hand, rule, ctx);
      if r.NoMatch? {
        assert o == ClearHand(st, refill);
        ClearHandConserves(st, refill);
      } else {
        assert r.Removed?;
        var line' := AddToMain(st.line, r.card);
        assert o == Replace(r.rest, line', st.deck, refill);
        TakenOut(st.hand, r.at, r.rest);
        ReplaceConserves(st, r.card, r.rest, line', refill);
      }
    }
  }

  lemma OfferConserves(st: TurnState, c: Card, rule: Rule, refill: seq<Card>)
    requires IsShuffledSet(refill)
    ensures Conserves(st, OfferCard(st, c, rule, refill))
  {
    var o := OfferCard(st, c, rule, refill);
    if o.status != Played {
      OfferStatus(st, c, rule, refill);
      UnchangedConserves(o.status, st);
    } else {
      var r := RemoveCard(st.hand, c);
      if Test(rule, ContextOf(st), c) == Pass {
        PassingConserves(st, c, r.rest, o);
      } else {
        var line' := AddToSide(st.line, c).value;
        assert o == Replace(r.rest, line', st.deck, refill);
        ReplaceConserves(st, c, r.rest, line', refill);
      }
    }
  }

  lemma PassingConserves(st: TurnState, c: Card, rest: seq<Card>, o: Outcome)
    requires multiset(rest) + multiset{c} == multiset(st.hand)
    requires o == Outcome(Played, TurnState(rest, AddToMain(st.line, c), st.deck), 0)
    ensures Conserves(st, o)
  {
    assert Copies(0) == multiset{};
    assert multiset(FullLine(o.after.line)) == multiset(FullLine(st.line)) + multiset{c};
  }
}

=== FILE: wrappers.dfy ===
/** The absent-or-present value used wherever the Python code returns `None`
    for "no match" instead of raising. */
module Wrappers {

  datatype Option<+T> = None | Some(value: T)

}
